=== FILE: README.md ===
# RAG chatbot over Google Docs — a Dafny model

This project models the core of a small retrieval-augmented chatbot written
in Python with Streamlit and LangChain. The user signs in with Google and
ticks some of their Google Docs. The application then fetches the plain text
of each ticked document (`GoogleDocsManager.get_document_content`). It splits
the texts into chunks and stores the chunks with their metadata in a vector
store (`RAGSystem.create_knowledge_base`).

Each question goes through one round:

- retrieve the top chunks, with a three-step fallback;
- ask the chat model under a grounding prompt;
- classify the answer as grounded or not by looking for hedging phrases;
- show either the answer with a deduplicated source list, or a warning
  followed by a general-knowledge fallback answer.

Exceptions are classified by their text into quota, API-key and other
failures, and each kind gets its own message.

Modules, one per file:

- `Outcomes` (`outcomes.dfy`) holds `Option`, `Error` and `Attempt`. An
  `Attempt` is a value that was either returned or raised as a Python
  exception. An `Error` carries `str(e)`.
- `Text` (`text.dfy`) holds the Python string operations the code relies on:
  `str.isspace`, `lower`, `p in s`, `strip`, `sep.join` and `"".join`.
- `GoogleDocs` (`google_docs.dfy`) models text extraction from a Docs
  document resource. It keeps the source's shared-list recursion and adds an
  element-wise reference definition.
- `KnowledgeBase` (`knowledge_base.dfy`) models how chunks and metadata are
  assembled, plus `format_docs` and the prompt template.
- `RagSystem` (`rag_system.dfy`) models the `RAGSystem` class: constructor,
  build, retrieval, query, classifier and fallback.
- `App` (`app.dfy`) models the session logic of `app.py`: the session
  record, the buttons, one chat round, and how failures are displayed.

External services are inputs, never computations:

- the text splitter is an uninterpreted function of size, overlap and text;
- the embedding call is a function from texts to an optional exception;
- a retriever call or a vector-store search is the outcome it had;
- the chat model is a function from the text of one user message to an
  outcome;
- a Docs API fetch is a function from a document id to a document resource,
  or to `None` for an `HttpError`;
- the API-key setting and any failure while the OpenAI clients are built are
  parameters.

What lies at the persist directory is explicit state (`disk`).

## Model

| member | source | states |
|---|---|---|
| Text.Contains | rag_system.py:180-188 | Python's `p in s` answers true exactly when `p` occurs at some position of `s` |
| Text.ToLowerIdempotent | rag_system.py:181 | after `lower()` no upper-case letter is left, and lowering again changes nothing |
| Text.SameIgnoringCaseLowersEqual | rag_system.py:181 | two strings lower to the same text exactly when they differ at most in letter case |
| Text.SubstringTransitive | rag_system.py:47 | a substring of a substring is a substring; this is why the `insufficient_quota` test is subsumed by the `quota` test |
| Text.AbsentCharNotSubstring | app.py:141-158 | a string holding a character the text lacks does not occur in it |
| Text.StripLeading | rag_system.py:80 | the leading half of `strip()` removes exactly a whitespace prefix, and what is left does not start with whitespace |
| Text.StripTrailing | rag_system.py:80 | the trailing half of `strip()` removes exactly a whitespace suffix, and what is left does not end with whitespace |
| Text.Strip | google_docs_manager.py:100 | the result of `strip()` neither starts nor ends with whitespace |
| Text.StripTrims | google_docs_manager.py:100 | `strip()` keeps one contiguous piece of the input and removes only whitespace on each side of it |
| Text.TrimsInTwoSteps | google_docs_manager.py:100 | removing a whitespace prefix and then a whitespace suffix leaves a piece trimmed out of the original |
| Text.StripIdempotent | google_docs_manager.py:100 | stripping a stripped string changes nothing |
| Text.StripEmptyIffBlank | rag_system.py:80-81 | `not content.strip()` holds exactly when every character of the content is whitespace |
| Text.JoinSplit | rag_system.py:133-134 | `sep.join` splits at every piece boundary into the pieces before it, one separator, and the pieces after it |
| Text.ConcatAppend | google_docs_manager.py:100 | `"".join` of two piece lists laid end to end is the concatenation of their joins; this is how a split body splits the document text |
| GoogleDocs.DocumentContent | google_docs_manager.py:95-100 | the extracted text has no whitespace at either end; a document without `body` or `body.content` yields the empty text |
| GoogleDocs.GetDocumentContent | google_docs_manager.py:70-104 | an `HttpError` while fetching is swallowed and yields the empty text; a fetched document yields the stripped concatenation of its body's element-wise contributions; the text never starts or ends with whitespace |
| GoogleDocs.AppendRunsAppends | google_docs_manager.py:80-83 | the loop over paragraph elements appends exactly the runs' contents, in order |
| GoogleDocs.ExtractTextAppends | google_docs_manager.py:76-93 | `extract_text` appends exactly the element's own contribution to the shared list and leaves earlier entries alone |
| GoogleDocs.ExtractRowsAppends | google_docs_manager.py:87-93 | the loop over table rows appends the rows' contributions in row order |
| GoogleDocs.ExtractCellsAppends | google_docs_manager.py:89-93 | the loop over a row's cells appends the cells' contributions in cell order |
| GoogleDocs.ExtractElementsAppends | google_docs_manager.py:91-98 | the loop over structural elements appends their contributions in order |
| GoogleDocs.DocumentContentIsStrippedBody | google_docs_manager.py:95-100 | the document text is the stripped concatenation of the body's element-wise contributions, and it is already stripped |
| GoogleDocs.RunsAppend | google_docs_manager.py:81-83 | the runs of two element lists laid end to end are the runs of each, in order |
| GoogleDocs.ParagraphContributions | google_docs_manager.py:82-83 | a text run contributes its `content`, or `""` when that key is missing, at its own place; a non-run element contributes nothing |
| GoogleDocs.ElementKinds | google_docs_manager.py:78-93 | a paragraph contributes its runs even if it also has a `table` key; an element with neither key contributes nothing; a table contributes its rows |
| GoogleDocs.RowPiecesAppend | google_docs_manager.py:88-93 | table rows contribute in sequence order |
| GoogleDocs.CellPiecesAppend | google_docs_manager.py:90-93 | table cells contribute in sequence order |
| GoogleDocs.ElementPiecesAppend | google_docs_manager.py:92-98 | structural elements contribute in sequence order |
| GoogleDocs.SingleCellTable | google_docs_manager.py:84-93 | a one-cell table around a paragraph contributes exactly that paragraph's runs |
| GoogleDocs.BodySplitsText | google_docs_manager.py:95-100 | splitting the body's element list splits the document text: it is the strip of the first part's joined contributions followed by the second part's |
| KnowledgeBase.Assemble | rag_system.py:72-92 | the collected texts and the metadata list always have the same length |
| KnowledgeBase.CollectChunks | rag_system.py:72-92 | the document loop skips whitespace-only documents and produces exactly the assembled corpus, with parallel lists |
| KnowledgeBase.AppendChunks | rag_system.py:86-92 | the `enumerate` loop appends the chunk texts in order, and beside each one its document id, name and 0-based chunk index |
| KnowledgeBase.AssembleConcat | rag_system.py:75-92 | collecting two document lists one after the other gives the concatenation of their corpora |
| KnowledgeBase.BlankDocumentContributesNothing | rag_system.py:80-81 | a whitespace-only document adds nothing to the corpus, wherever it stands |
| KnowledgeBase.OffsetStep | rag_system.py:75-92 | each document occupies as many consecutive entries as it has chunks, right after the previous document's entries |
| KnowledgeBase.AssembleLayout | rag_system.py:86-92 | inside its block, a document's `j`-th entry is its `j`-th chunk, tagged with its id, its name and `chunk_index` `j` |
| KnowledgeBase.EmptyCorpusIff | rag_system.py:94-95 | nothing is collected exactly when every document is whitespace only or yields no chunk |
| KnowledgeBase.FormatDocsLayout | rag_system.py:133-134 | the context block has exactly one blank line between any two consecutive chunks, in rank order |
| KnowledgeBase.FormatDocsSmall | rag_system.py:133-134 | the context block is empty for no chunks and is the chunk's own text for one chunk |
| KnowledgeBase.RenderPrompt | rag_system.py:117-130 | the filled template starts with the fixed instructions and holds the context and the question at their fixed positions |
| RagSystem.QuotaTestSimplifies | rag_system.py:47 | the three-part quota test holds exactly when the lowered text contains "quota" or the raw text contains "429" |
| RagSystem.QuotaMessageIsQuota | rag_system.py:47-51 | the constructor's replacement billing message itself passes the quota test |
| RagSystem.MissingKeyIsNotQuota | rag_system.py:31-32 | the missing-key error does not pass the quota test |
| RagSystem.NoTextIsNotQuota | rag_system.py:94-95 | the "no text content" error does not pass the quota test |
| RagSystem.NewRagSystem | rag_system.py:29-62 | construction succeeds exactly when the key is set and non-empty and the clients build; a missing or empty key raises the key error first; a client failure that passes the quota test is replaced by the billing message and any other is re-raised unchanged; a new system is not ready |
| RagSystem.CreateKnowledgeBase | rag_system.py:64-147 | the build succeeds exactly when some text was collected and embedding it does not raise; no text means the "no text" error with system and directory untouched; once text was collected the build raises exactly what embedding raised; success leaves a ready system whose store, also on disk, holds exactly the assembled corpus; a failed embedding leaves the old system and an empty directory |
| RagSystem.RebuildDiscardsPreviousStore | rag_system.py:97-109 | a successful build does not depend on the previous system or directory, and every stored entry is a chunk of one of this build's documents |
| RagSystem.EntryTracesToDocument | rag_system.py:86-92 | every collected entry is a chunk of some input document, with that document's id and name and a valid chunk index |
| RagSystem.RetrieveSources | rag_system.py:164-173 | retrieval gives `invoke`'s result when it returns; otherwise the similarity search's when that returns; otherwise the old method's outcome, or the empty list when there is no old method; it raises only when all three raise |
| RagSystem.RetrieveSourcesIsFallbackChain | rag_system.py:164-173 | retrieval equals a generic first-that-returns chain over `invoke` and the similarity search, ending in the old method or the empty list |
| RagSystem.AnyPhraseIn | rag_system.py:180-188 | `any(phrase in text ...)` holds exactly when some phrase occurs in the text |
| RagSystem.FoundInDocs | rag_system.py:180-188 | an answer counts as found exactly when a chunk was retrieved and none of the five phrases occurs in the lowered answer; with no chunk it is never found, whatever it says |
| RagSystem.FoundInDocsIgnoresCase | rag_system.py:180-181 | answers that differ only in letter case get the same verdict |
| RagSystem.FoundInDocsOfLowered | rag_system.py:181 | lowering the answer beforehand does not change the verdict |
| RagSystem.HedgingAnswerNotFound | rag_system.py:180-188 | an answer containing a negative phrase in any letter case is never found |
| RagSystem.ChainAsksGroundedPrompt | rag_system.py:139-147 | the chain sends the chat model one prompt that starts with the grounding instructions and holds the context block and the question; a retrieval failure inside the chain propagates unchanged |
| RagSystem.Query | rag_system.py:149-190 | a query before the knowledge base exists raises "not initialized"; a raising retrieval, and then a raising chain, is re-raised unchanged; when both return, the result is the chain's answer, the retrieved sources and the verdict computed from both |
| RagSystem.QueryNotReadyIgnoresServices | rag_system.py:159-160 | before a build the query fails the same way whatever the services would do |
| RagSystem.RetrievalExhaustedNotFound | rag_system.py:167-173 | when `invoke` and the similarity search both raise and there is no old method, no source is returned and the answer is never found |
| App.InitializeOnlyFillsMissing | app.py:14-31 | initialization keeps every present key and fills only missing ones, so repeating it changes nothing; a fresh session is signed out with no knowledge base and an empty chat |
| App.Logout | app.py:165-175 | logging out returns all eight fields to a fresh session's values |
| App.ClearChatHistory | app.py:246-250 | clearing empties the chat and changes nothing else |
| App.SelectedIds | app.py:99-112 | the selection holds exactly the ids of the listed documents whose box is ticked |
| App.SelectedIdsAppend | app.py:102-110 | the selection follows list order: selecting from a list split in two puts the first part's ids first |
| App.SelectedIdsOne | app.py:102-110 | one document contributes its id exactly when its box is ticked |
| App.TickDocuments | app.py:97-112 | when documents are listed the stored selection becomes the ticked ids and nothing else changes; with no documents nothing changes |
| App.DedupCorrect | app.py:209-215 | the rendered names repeat nothing, are exactly the names of the sources, and follow the order of first occurrence |
| App.UniqueSourceNames | app.py:209-215 | the dict-based loop lists the names in order of first occurrence, each once, with "Unknown" for a chunk that has no name |
| App.ComposeResponse | app.py:205-223 | a grounded answer is shown first, followed by the sources section only when chunks were retrieved; otherwise the warning prefix comes before the fallback answer, and a fallback failure propagates as the fallback's own exception |
| App.ResponseDependencies | app.py:205-223 | the fallback call matters only when the answer is not grounded, and then the grounded answer and sources do not matter |
| App.GroundedResponseNamesEverySource | app.py:207-215 | a grounded response with sources names every source's document |
| App.ClassifyBuildFailure | app.py:139-158 | a failure is a quota failure exactly when it passes the quota test; it is an API-key failure exactly when it does not but mentions `OPENAI_API_KEY` or "api key" |
| App.BuildFailureDisplay | app.py:139-158 | a build failure that passes the quota test shows the quota advice followed by the exception text; otherwise one mentioning `OPENAI_API_KEY` or "api key" shows the API-key advice alone; any other shows the plain build error with the exception text |
| App.MissingKeyShowsKeyAdvice | app.py:152-156 | a missing API key is shown as the API-key advice alone |
| App.QuotaFailureShowsQuotaAdvice | app.py:141-151 | the constructor's quota failure is shown as the quota advice followed by the exception text |
| App.NoTextMentionsNoKey | app.py:152 | the "no text content" error does not match the API-key test |
| App.NoTextShowsPlainError | app.py:157-158 | the "no text content" error is shown as the plain build error with its text |
| App.QueryFailureDisplay | app.py:229-241 | a failed question shows the quota text exactly when the failure passes the quota test, and otherwise the error prefix followed by the exception text |
| App.SelectedInfos | app.py:123-124 | the picked documents are exactly the listed ones whose id is selected |
| App.SelectedInfosAppend | app.py:122-130 | the filter follows list order: filtering a list split in two puts the first part's documents first |
| App.SelectedInfosOne | app.py:123-124 | one listed document is kept exactly when its id is selected |
| App.SelectedInfosFollowTicks | app.py:102-124 | filtering by a selection that agrees with the ticks picks the ticked documents' ids in list order |
| App.TickedDocumentsAreFetched | app.py:102-130 | after the boxes are drawn the button fetches exactly the ticked documents, one per ticked id, in list order |
| App.DocumentsDataSelects | app.py:121-130 | `documents_data` has one entry per selected listed document, in list order, each with that document's id and name and its fetched text |
| App.CreateKnowledgeBaseRound | app.py:97-158 | with nothing selected only the warning appears; a constructor failure shows its classified display and changes nothing; a failure raised by the build itself shows its classified display with the session unchanged and the directory as the build left it; the knowledge base is marked created exactly when construction and build both succeed, and then the session holds a ready system built from the selected documents, the notice counts the selected documents and the directory holds the new store |
| App.KnowledgeBaseFlagNeedsSuccessfulBuild | app.py:133-138 | the created flag becomes true only through a successful build that stored some text |
| App.ConstructorFailureShowsAdvice | app.py:133-156 | on the button, a missing or empty API key shows the API-key advice alone, and a quota failure while the clients are built shows the quota advice with the billing message; nothing else changes |
| App.NothingReadableFailsBuild | app.py:120-158 | when every selected document reads as whitespace only, including unreadable ones, the plain "no text" error is shown and nothing changes |
| App.EmbeddingFailureIsShown | app.py:139-158 | an exception raised while embedding is shown classified, with the session unchanged and the old store gone; a quota failure shows the quota advice followed by the exception text |
| App.AskQuestion | app.py:180-244 | without a knowledge base or with an empty question nothing happens; otherwise exactly two entries are appended, the user's question and then an assistant reply, and nothing else changes |
| App.AssistantReply | app.py:200-244 | the assistant's entry is the failure display of the exception text when no system is stored or the query raises; otherwise it is the composed response, or the failure display of the fallback's exception when composing raised |
| App.ReplyFollowsVerdict | app.py:202-227 | a not-found answer is replaced by the warning and the fallback answer; a found answer is shown as is when no chunk was retrieved, and otherwise followed by the sources header and one line per deduplicated document name |
| App.FailuresReachTheChat | app.py:200-244 | a missing system, a raising query and a raising fallback call each put the failure display of the exception text into the chat as the assistant's entry |
| App.ChatQuotaFailureShowsQuotaText | app.py:200-241 | a quota failure of the chat model, on the grounded prompt or on the fallback question, puts the quota text into the chat |

## Left out

- `Text.ToLower` models `str.lower()` for ASCII letters only. Unicode case
  mapping is not modelled.
- The chunking algorithm of `RecursiveCharacterTextSplitter` is not modelled.
  It is an uninterpreted function of `CHUNK_SIZE`, `CHUNK_OVERLAP` and the
  text, so no property about chunk lengths or overlap is stated.
- Embeddings, similarity ranking and the Chroma store are not modelled. They
  use floating point and external services. A store is just the corpus it
  holds, and a search is just the outcome it had. The order of retrieved
  chunks is taken as given.
- The chat model, the embedding provider and the retriever are
  nondeterministic services. Within one round they are fixed functions or
  fixed outcomes. The chain's own retriever call is a separate outcome from
  the `source_docs` retrieval.
- `RagSystem.CreateKnowledgeBase` treats a failing embedding call as leaving
  the persist directory empty. A partial write by Chroma before it raises is
  not modelled.
- `RagSystem.NewRagSystem` models client construction as one optional
  failure. Which of the two clients raised is not distinguished.
- `GoogleDocs.GetDocumentContent` covers the `HttpError` path. Any other
  exception raised while fetching propagates to the knowledge-base button in
  the source; here it is not modelled.
- `AuthManager` (OAuth sign-in, token storage), `list_documents`,
  `setup_credentials.py`, the HTTP API under `api/` and the credentials-file
  check are not part of this model. They are I/O with Google's services and
  the file system.
- The Sign-in and Refresh-documents buttons are not modelled. They only copy
  service results into the session.
- Streamlit widgets, spinners, reruns and the rendering of the chat are not
  modelled. The success and info notices are only noted, not formatted.
- `RagSystem.FallbackAnswer` has no contract of its own. It is one call to
  the chat model with the bare question. What matters about it is stated
  through `ComposeResponse` and `ReplyFollowsVerdict`.

## Notes on the code's behaviour

- Failures are plain exceptions: a `ValueError` with a fixed message, or the
  provider's own exception. The user-facing classification is done only by
  substring tests on the message text, and the model does the same.
- The build rejects an empty collection of text before any embedding call.
  The OpenAI clients are constructed before that check, so a client failure
  is reported first (`App.CreateKnowledgeBaseRound`).
- Retrieval failures are swallowed: when `invoke` and the similarity search
  both raise and the retriever has no old method, the query continues with
  no sources (`RagSystem.RetrieveSources`). An `HttpError` while fetching a
  document is swallowed too, and the document's text is empty
  (`GoogleDocs.GetDocumentContent`).

=== FILE: app.dfy ===
/** The session logic of the Streamlit application (app.py) once widgets,
    spinners and reruns are removed: the session record and its reset, the
    knowledge-base button, one question-answering round, the rendered list
    of source documents, and the classification of failures into the
    messages the user sees.
 */
module App {
  import opened Outcomes
  import opened Text
  import GoogleDocs
  import opened KnowledgeBase
  import opened RagSystem

  // ---------------------------------------------------------------------------
  // The session record
  // ---------------------------------------------------------------------------

  /** OAuth credentials, opaque to the application. */
  datatype Credentials = Credentials(token: string)

  /** A `GoogleDocsManager` built from credentials. */
  datatype DocsManager = DocsManager(credentials: Credentials)

  /** An entry of the document list. */
  datatype DocumentInfo = DocumentInfo(id: string, name: string, modifiedTime: string)

  datatype Role = User | Assistant

  /** One `(role, message)` pair of `chat_history`. */
  datatype ChatEntry = ChatEntry(role: Role, message: string)

  /** The eight fields of `st.session_state`. */
  datatype Session = Session(
    authenticated: bool,
    credentials: Option<Credentials>,
    docsManager: Option<DocsManager>,
    documents: seq<DocumentInfo>,
    selectedDocs: seq<string>,
    ragSystem: Option<Rag>,
    knowledgeBaseCreated: bool,
    chatHistory: seq<ChatEntry>)

  /** `st.session_state` as found at the start of a script run: each of the
      eight keys may be missing (`None` at the outer level). */
  datatype StoredState = StoredState(
    authenticated: Option<bool>,
    credentials: Option<Option<Credentials>>,
    docsManager: Option<Option<DocsManager>>,
    documents: Option<seq<DocumentInfo>>,
    selectedDocs: Option<seq<string>>,
    ragSystem: Option<Option<Rag>>,
    knowledgeBaseCreated: Option<bool>,
    chatHistory: Option<seq<ChatEntry>>)

  /** A brand-new browser session: no key is set yet. */
  const NoStoredState := StoredState(None, None, None, None, None, None, None, None)

  /** The state as stored once every key is present. */
  function Stored(s: Session): StoredState {
    StoredState(Some(s.authenticated), Some(s.credentials), Some(s.docsManager), Some(s.documents),
                Some(s.selectedDocs), Some(s.ragSystem), Some(s.knowledgeBaseCreated), Some(s.chatHistory))
  }

  /** `initialize_session_state`: every missing key gets its default, every present key keeps its value. */
  function InitializeSessionState(st: StoredState): Session {
    Session(
      st.authenticated.GetOr(false),
      st.credentials.GetOr(None),
      st.docsManager.GetOr(None),
      st.documents.GetOr([]),
      st.selectedDocs.GetOr([]),
      st.ragSystem.GetOr(None),
      st.knowledgeBaseCreated.GetOr(false),
      st.chatHistory.GetOr([]))
  }

  /** Initialization only fills in missing keys: on a fully populated state it
      changes nothing, so running it on every rerun is harmless; a fresh
      session starts signed out, with nothing selected, no knowledge base and
      an empty chat. */
  lemma InitializeOnlyFillsMissing(s: Session, st: StoredState)
    ensures InitializeSessionState(Stored(s)) == s
    ensures InitializeSessionState(Stored(InitializeSessionState(st))) == InitializeSessionState(st)
    ensures var initial := InitializeSessionState(NoStoredState);
            !initial.authenticated && initial.ragSystem.None? && !initial.knowledgeBaseCreated && initial.chatHistory == []
  {
  }

  /** The Logout button: all eight fields are reset. */
  function Logout(s: Session): (s': Session)
    ensures s' == InitializeSessionState(NoStoredState)
  {
    s.(authenticated := false,
       credentials := None,
       docsManager := None,
       documents := [],
       selectedDocs := [],
       ragSystem := None,
       knowledgeBaseCreated := false,
       chatHistory := [])
  }

  /** The Clear Chat History button: the conversation returns to its initial state, nothing else changes. */
  function ClearChatHistory(s: Session): (s': Session)
    ensures s'.chatHistory == InitializeSessionState(NoStoredState).chatHistory
    ensures s'.(chatHistory := s.chatHistory) == s
  {
    s.(chatHistory := [])
  }

  /** The document checkboxes: the ids of the listed documents whose box is ticked, in list order. */
  function SelectedIds(docs: seq<DocumentInfo>, ticked: string -> bool): (ids: seq<string>)
    ensures |ids| <= |docs|
    ensures forall x :: x in ids <==> exists d :: d in docs && d.id == x && ticked(x)
  {
    if |docs| == 0 then []
    else
      var rest := SelectedIds(docs[1..], ticked);
      assert forall d :: d in docs <==> d == docs[0] || d in docs[1..];
      if ticked(docs[0].id) then [docs[0].id] + rest else rest
  }

  /** The selection keeps list order: selecting from a list split in two
      selects from each part and puts the first part's ids first. */
  lemma {:induction false} SelectedIdsAppend(a: seq<DocumentInfo>, b: seq<DocumentInfo>, ticked: string -> bool)
    ensures SelectedIds(a + b, ticked) == SelectedIds(a, ticked) + SelectedIds(b, ticked)
  {
    if |a| == 0 {
      assert a + b == b;
    } else {
      var ab := a + b;
      assert ab[0] == a[0];
      assert ab[1..] == a[1..] + b;
      SelectedIdsAppend(a[1..], b, ticked);
    }
  }

  /** One listed document contributes its id exactly when its box is ticked. */
  lemma SelectedIdsOne(d: DocumentInfo, ticked: string -> bool)
    ensures SelectedIds([d], ticked) == if ticked(d.id) then [d.id] else []
  {
    assert [d][1..] == [];
  }

  /** The document list as drawn on each rerun: when documents are listed, the
      stored selection becomes the ids whose box is ticked; with no documents
      no box is drawn and nothing changes. */
  function TickDocuments(s: Session, ticked: string -> bool): (s': Session)
    ensures |s.documents| == 0 ==> s' == s
    ensures s'.(selectedDocs := s.selectedDocs) == s
    ensures |s.documents| > 0 ==> s'.selectedDocs == SelectedIds(s.documents, ticked)
  {
    if |s.documents| == 0 then s
    else s.(selectedDocs := SelectedIds(s.documents, ticked))
  }

  // ---------------------------------------------------------------------------
  // The rendered list of sources
  // ---------------------------------------------------------------------------

  /** `doc.metadata.get('document_name', 'Unknown')`. */
  function SourceName(c: RetrievedChunk): string {
    c.documentName.GetOr("Unknown")
  }

  function SourceNames(sources: seq<RetrievedChunk>): seq<string> {
    seq(|sources|, i requires 0 <= i < |sources| => SourceName(sources[i]))
  }

  /** The names in order of first occurrence, each once. */
  function Dedup(xs: seq<string>): seq<string> {
    if |xs| == 0 then []
    else
      var d := Dedup(xs[..|xs| - 1]);
      if xs[|xs| - 1] in d then d else d + [xs[|xs| - 1]]
  }

  /** Position of the first occurrence of `x` in `xs`. */
  ghost function FirstIndex(xs: seq<string>, x: string): (k: nat)
    requires x in xs
    ensures k < |xs| && xs[k] == x
    ensures forall m :: 0 <= m < k ==> xs[m] != x
  {
    if xs[0] == x then 0 else 1 + FirstIndex(xs[1..], x)
  }

  /** Appending to a list does not move the first occurrence of anything already in it. */
  lemma FirstIndexStable(xs: seq<string>, ys: seq<string>, x: string)
    requires x in xs
    ensures FirstIndex(xs + ys, x) == FirstIndex(xs, x)
  {
    var a, b := FirstIndex(xs + ys, x), FirstIndex(xs, x);
    assert (xs + ys)[b] == x;
    assert a <= b;
    assert xs[a] == (xs + ys)[a];
  }

  /** The rendered names: no name twice, exactly the names that occur among
      the sources, listed in the order in which they first occur. */
  lemma {:induction false} DedupCorrect(xs: seq<string>)
    ensures forall i, j :: 0 <= i < j < |Dedup(xs)| ==> Dedup(xs)[i] != Dedup(xs)[j]
    ensures forall x :: x in Dedup(xs) <==> x in xs
    ensures forall i, j :: 0 <= i < j < |Dedup(xs)| ==> FirstIndex(xs, Dedup(xs)[i]) < FirstIndex(xs, Dedup(xs)[j])
  {
    if |xs| > 0 {
      var init, y := xs[..|xs| - 1], xs[|xs| - 1];
      assert xs == init + [y];
      DedupCorrect(init);
      var d := Dedup(init);
      forall x | x in init
        ensures FirstIndex(xs, x) == FirstIndex(init, x)
      {
        FirstIndexStable(init, [y], x);
      }
      if y !in d {
        assert FirstIndex(xs, y) == |init|;
      }
    }
  }

  /** The loop that renders the sources: names are put into a dict in order,
      skipping names already there, and the dict's keys are listed. */
  method UniqueSourceNames(sources: seq<RetrievedChunk>) returns (names: seq<string>)
    ensures names == Dedup(SourceNames(sources))
  {
    var all := SourceNames(sources);
    names := [];
    var seen: set<string> := {};
    for i := 0 to |sources|
      invariant names == Dedup(all[..i])
      invariant seen == set x | x in names
    {
      var name := SourceName(sources[i]);
      assert all[..i + 1][..i] == all[..i];
      if name !in seen {
        names := names + [name];
        seen := seen + {name};
      }
    }
    assert all[..|sources|] == all;
  }

  // ---------------------------------------------------------------------------
  // Composing the response
  // ---------------------------------------------------------------------------

  const SourcesHeader := "\n\n\U{1F4C4} **Sources:**\n"
  const FallbackPrefix :=
    "\U{26A0}\U{FE0F} **I couldn't find an answer to your question in your selected documents.**\n\n"
    + "Here's what I know from my general knowledge:\n\n"

  /** One `- name` line per name. */
  function SourceLines(names: seq<string>): string {
    Concat(seq(|names|, i requires 0 <= i < |names| => "- " + names[i] + "\n"))
  }

  /** The response shown for a query result. When the answer is found in the
      documents it is shown, followed by the sources section when any chunk was
      retrieved; otherwise the answer is dropped and the fallback answer, which
      may itself raise, follows the warning prefix. */
  function ComposeResponse(result: QueryResult, fallback: Attempt<string>): (r: Attempt<string>)
    ensures result.foundInDocs ==> r.Returned? && |result.answer| <= |r.value| && r.value[..|result.answer|] == result.answer
    ensures result.foundInDocs && |result.sources| == 0 ==> r.value == result.answer
    ensures result.foundInDocs && |result.sources| > 0 ==>
              r.value[|result.answer|..] == SourcesHeader + SourceLines(Dedup(SourceNames(result.sources)))
    ensures !result.foundInDocs ==> (r.Returned? <==> fallback.Returned?)
    ensures !result.foundInDocs && fallback.Raised? ==> r == Raised(fallback.error)
    ensures !result.foundInDocs && r.Returned? ==>
              && |FallbackPrefix| <= |r.value|
              && r.value[..|FallbackPrefix|] == FallbackPrefix
              && r.value[|FallbackPrefix|..] == fallback.value
  {
    if result.foundInDocs then
      if |result.sources| > 0 then
        Returned(result.answer + (SourcesHeader + SourceLines(Dedup(SourceNames(result.sources)))))
      else
        Returned(result.answer)
    else
      match fallback
      case Raised(e) => Raised(e)
      case Returned(text) => Returned(FallbackPrefix + text)
  }

  /** The fallback answer is only consulted when the answer is not found, and
      then neither the grounded answer nor the sources affect the response. */
  lemma ResponseDependencies(result: QueryResult, other: QueryResult, fallback1: Attempt<string>, fallback2: Attempt<string>)
    ensures result.foundInDocs ==> ComposeResponse(result, fallback1) == ComposeResponse(result, fallback2)
    ensures !result.foundInDocs && !other.foundInDocs ==> ComposeResponse(result, fallback1) == ComposeResponse(other, fallback1)
  {
  }

  /** A grounded response with sources lists every source's document name, "Unknown" for those without one. */
  lemma GroundedResponseNamesEverySource(result: QueryResult, fallback: Attempt<string>, i: nat)
    requires result.foundInDocs && i < |result.sources|
    ensures SourceName(result.sources[i]) in Dedup(SourceNames(result.sources))
    ensures ComposeResponse(result, fallback).value
         == result.answer + SourcesHeader + SourceLines(Dedup(SourceNames(result.sources)))
  {
    DedupCorrect(SourceNames(result.sources));
    assert SourceNames(result.sources)[i] == SourceName(result.sources[i]);
  }

  // ---------------------------------------------------------------------------
  // Failure messages
  // ---------------------------------------------------------------------------

  datatype FailureKind = QuotaExceeded | ApiKeyProblem | OtherFailure

  /** How the knowledge-base button classifies an exception's text. */
  function ClassifyBuildFailure(msg: string): (k: FailureKind)
    ensures k == QuotaExceeded <==> IsSubstring("quota", ToLower(msg)) || IsSubstring("429", msg)
    ensures k == ApiKeyProblem <==>
              && !(IsSubstring("quota", ToLower(msg)) || IsSubstring("429", msg))
              && (IsSubstring("OPENAI_API_KEY", msg) || IsSubstring("api key", ToLower(msg)))
  {
    QuotaTestSimplifies(msg);
    if IsQuotaMessage(msg) then QuotaExceeded
    else if Contains(msg, "OPENAI_API_KEY") || Contains(ToLower(msg), "api key") then ApiKeyProblem
    else OtherFailure
  }

  const BuildQuotaText :=
    "\U{26A0}\U{FE0F} **OpenAI API Quota Exceeded**\n\n"
    + "You have exceeded your OpenAI API quota or billing is not set up.\n\n"
    + "**Solutions:**\n"
    + "1. Check your OpenAI account billing: https://platform.openai.com/account/billing\n"
    + "2. Add payment method if not already added\n"
    + "3. Verify your API usage and limits: https://platform.openai.com/usage\n"
    + "4. Wait for quota to reset or upgrade your plan\n\n"
    + "**Technical Details:** "
  const ApiKeyText :=
    "\U{26A0}\U{FE0F} **OpenAI API Key Error**\n\n"
    + "Please check your `.env` file and ensure `OPENAI_API_KEY` is set correctly."
  const BuildErrorText := "\U{274C} **Error creating knowledge base:**\n\n"

  /** The error shown when building the knowledge base fails: the quota advice
      and the exception text for a quota failure, otherwise the API-key advice
      alone when the text mentions the key, otherwise the plain error with the
      exception text. */
  function BuildFailureDisplay(msg: string): (shown: string)
    ensures IsSubstring("quota", ToLower(msg)) || IsSubstring("429", msg) ==> shown == BuildQuotaText + msg
    ensures !(IsSubstring("quota", ToLower(msg)) || IsSubstring("429", msg)) ==>
              (IsSubstring("OPENAI_API_KEY", msg) || IsSubstring("api key", ToLower(msg)) ==> shown == ApiKeyText)
    ensures !(IsSubstring("quota", ToLower(msg)) || IsSubstring("429", msg)) ==>
              (!(IsSubstring("OPENAI_API_KEY", msg) || IsSubstring("api key", ToLower(msg))) ==> shown == BuildErrorText + msg)
  {
    match ClassifyBuildFailure(msg)
    case QuotaExceeded => BuildQuotaText + msg
    case ApiKeyProblem => ApiKeyText
    case OtherFailure => BuildErrorText + msg
  }

  /** A missing API key is reported with the API-key advice alone. */
  lemma MissingKeyShowsKeyAdvice()
    ensures BuildFailureDisplay(MissingKeyMessage) == ApiKeyText
  {
    MissingKeyIsNotQuota();
    QuotaTestSimplifies(MissingKeyMessage);
    assert MissingKeyMessage[..14] == "OPENAI_API_KEY";
    assert OccursAt("OPENAI_API_KEY", MissingKeyMessage, 0);
  }

  /** The constructor's quota failure is reported with the quota advice followed by the exception text. */
  lemma QuotaFailureShowsQuotaAdvice()
    ensures BuildFailureDisplay(QuotaMessage) == BuildQuotaText + QuotaMessage
  {
    QuotaMessageIsQuota();
    QuotaTestSimplifies(QuotaMessage);
  }

  /** The "no text" error mentions no API key. */
  lemma NoTextMentionsNoKey()
    ensures !IsSubstring("OPENAI_API_KEY", NoTextMessage) && !IsSubstring("api key", ToLower(NoTextMessage))
  {
    var m := NoTextMessage;
    var lowered := ToLower(m);
    assert forall i :: 0 <= i < |m| ==> m[i] != '_' && m[i] != 'y' && m[i] != 'Y';
    assert forall i :: 0 <= i < |lowered| ==> lowered[i] == LowerChar(m[i]) != 'y';
    AbsentCharNotSubstring("OPENAI_API_KEY", m, 6);
    AbsentCharNotSubstring("api key", lowered, 6);
  }

  /** A build that collected no text is reported as a plain error with the exception text. */
  lemma NoTextShowsPlainError()
    ensures BuildFailureDisplay(NoTextMessage) == BuildErrorText + NoTextMessage
  {
    NoTextIsNotQuota();
    QuotaTestSimplifies(NoTextMessage);
    NoTextMentionsNoKey();
  }

  const QueryQuotaText :=
    "\U{26A0}\U{FE0F} **OpenAI API Quota Exceeded**\n\n"
    + "Unable to process your query due to OpenAI API quota limits.\n\n"
    + "**Please:**\n"
    + "1. Check billing: https://platform.openai.com/account/billing\n"
    + "2. Add payment method if needed\n"
    + "3. Check usage limits: https://platform.openai.com/usage"
  const QueryErrorText := "\U{274C} **Error:** "

  /** The chat entry shown when answering a question fails: the quota text for
      quota failures, otherwise the exception text after a fixed prefix. The
      API-key case has no message of its own here. */
  function QueryFailureDisplay(msg: string): (shown: string)
    ensures shown == QueryQuotaText <==> IsSubstring("quota", ToLower(msg)) || IsSubstring("429", msg)
    ensures !(IsSubstring("quota", ToLower(msg)) || IsSubstring("429", msg)) ==> shown == QueryErrorText + msg
  {
    QuotaTestSimplifies(msg);
    if IsQuotaMessage(msg) then QueryQuotaText
    else
      assert (QueryErrorText + msg)[4] != QueryQuotaText[4];
      QueryErrorText + msg
  }

  // ---------------------------------------------------------------------------
  // The knowledge-base button
  // ---------------------------------------------------------------------------

  /** What the button shows. */
  datatype Notice = SelectAtLeastOne | Created(documentCount: nat) | BuildFailed(display: string)

  /** After the button: the session, the persist directory, and the notice shown. */
  datatype BuildRound = BuildRound(session: Session, disk: Option<VectorStore>, notice: Notice)

  /** The entry of `documents_data` for one listed document. */
  function Fetched(d: DocumentInfo, fetch: GoogleDocs.Fetch): SourceDocument {
    SourceDocument(d.id, d.name, GoogleDocs.GetDocumentContent(fetch, d.id))
  }

  /** The listed documents whose id is among the selected ones, in list order. */
  function SelectedInfos(docs: seq<DocumentInfo>, selected: seq<string>): (picked: seq<DocumentInfo>)
    ensures |picked| <= |docs|
    ensures forall d :: d in picked <==> d in docs && d.id in selected
  {
    if |docs| == 0 then []
    else
      var rest := SelectedInfos(docs[1..], selected);
      assert forall d :: d in docs <==> d == docs[0] || d in docs[1..];
      if docs[0].id in selected then [docs[0]] + rest else rest
  }

  /** The filter keeps list order: filtering a list split in two filters each
      part and puts the first part's documents first. */
  lemma {:induction false} SelectedInfosAppend(a: seq<DocumentInfo>, b: seq<DocumentInfo>, selected: seq<string>)
    ensures SelectedInfos(a + b, selected) == SelectedInfos(a, selected) + SelectedInfos(b, selected)
  {
    if |a| == 0 {
      assert a + b == b;
    } else {
      var ab := a + b;
      assert ab[0] == a[0];
      assert ab[1..] == a[1..] + b;
      SelectedInfosAppend(a[1..], b, selected);
    }
  }

  /** One listed document is kept exactly when its id is selected. */
  lemma SelectedInfosOne(d: DocumentInfo, selected: seq<string>)
    ensures SelectedInfos([d], selected) == if d.id in selected then [d] else []
  {
    assert [d][1..] == [];
  }

  /** The ids of a list of documents, in order. */
  function Ids(docs: seq<DocumentInfo>): seq<string> {
    seq(|docs|, i requires 0 <= i < |docs| => docs[i].id)
  }

  /** Filtering by any selection that agrees with the ticks on the listed
      documents picks the ticked documents, in list order. */
  lemma {:induction false} SelectedInfosFollowTicks(docs: seq<DocumentInfo>, ticked: string -> bool, selected: seq<string>)
    requires forall d :: d in docs ==> (d.id in selected <==> ticked(d.id))
    ensures Ids(SelectedInfos(docs, selected)) == SelectedIds(docs, ticked)
  {
    if |docs| > 0 {
      var first, tail := docs[0], docs[1..];
      assert first in docs;
      forall d | d in tail
        ensures d.id in selected <==> ticked(d.id)
      {
        assert d in docs;
      }
      SelectedInfosFollowTicks(tail, ticked, selected);
      var rest := SelectedInfos(tail, selected);
      if ticked(first.id) {
        assert SelectedInfos(docs, selected) == [first] + rest;
        assert Ids([first] + rest) == [first.id] + Ids(rest);
      } else {
        assert SelectedInfos(docs, selected) == rest;
      }
    }
  }

  /** After the checkboxes are drawn, the button fetches exactly the ticked
      documents, one per ticked box, in list order. */
  lemma TickedDocumentsAreFetched(s: Session, ticked: string -> bool)
    requires |s.documents| > 0
    ensures var s' := TickDocuments(s, ticked);
            Ids(SelectedInfos(s'.documents, s'.selectedDocs)) == s'.selectedDocs
  {
    var ids := SelectedIds(s.documents, ticked);
    forall d | d in s.documents
      ensures d.id in ids <==> ticked(d.id)
    {
    }
    SelectedInfosFollowTicks(s.documents, ticked, ids);
  }

  /** `documents_data`: the selected entries of the document list, in list
      order, each with its id, its name and its fetched text. */
  function DocumentsData(docs: seq<DocumentInfo>, selected: seq<string>, fetch: GoogleDocs.Fetch)
    : (data: seq<SourceDocument>)
  {
    var picked := SelectedInfos(docs, selected);
    seq(|picked|, i requires 0 <= i < |picked| => Fetched(picked[i], fetch))
  }

  /** `documents_data` holds exactly the fetched selected documents, one
      entry per selected listed document, in the order of the list. */
  lemma DocumentsDataSelects(docs: seq<DocumentInfo>, selected: seq<string>, fetch: GoogleDocs.Fetch)
    ensures |DocumentsData(docs, selected, fetch)| == |SelectedInfos(docs, selected)|
    ensures forall i :: 0 <= i < |SelectedInfos(docs, selected)| ==>
              DocumentsData(docs, selected, fetch)[i] == Fetched(SelectedInfos(docs, selected)[i], fetch)
    ensures forall d :: d in docs && d.id in selected ==> Fetched(d, fetch) in DocumentsData(docs, selected, fetch)
    ensures forall e :: e in DocumentsData(docs, selected, fetch) ==>
              e.id in selected && exists d :: d in docs && d.id == e.id && d.name == e.name
    ensures forall i :: 0 <= i < |DocumentsData(docs, selected, fetch)| ==>
              DocumentsData(docs, selected, fetch)[i].content == GoogleDocs.GetDocumentContent(fetch, DocumentsData(docs, selected, fetch)[i].id)
  {
    var picked := SelectedInfos(docs, selected);
    var data := DocumentsData(docs, selected, fetch);
    forall d | d in docs && d.id in selected
      ensures Fetched(d, fetch) in data
    {
      var i :| 0 <= i < |picked| && picked[i] == d;
      assert data[i] == Fetched(d, fetch);
    }
    forall e | e in data
      ensures e.id in selected && exists d :: d in docs && d.id == e.id && d.name == e.name
    {
      var i :| 0 <= i < |data| && data[i] == e;
      assert picked[i] in picked;
    }
  }

  /** The Create Knowledge Base button: with nothing selected only a warning
      is shown; otherwise the selected documents are fetched, a new
      `RAGSystem` is constructed and built, and only when both succeed does
      the session take the new system and mark the knowledge base created.
      Any failure is classified and shown, and leaves the session unchanged.
      The button is only drawn while the document list is non-empty. */
  function CreateKnowledgeBaseRound(
    s: Session, disk: Option<VectorStore>, fetch: GoogleDocs.Fetch,
    apiKey: Option<string>, clientFailure: Option<Error>, split: Splitter, embed: seq<string> -> Option<Error>)
    : (r: BuildRound)
    requires |s.documents| > 0
    ensures |s.selectedDocs| == 0 ==> r == BuildRound(s, disk, SelectAtLeastOne)
    ensures |s.selectedDocs| > 0 && NewRagSystem(apiKey, clientFailure).Raised? ==>
              r == BuildRound(s, disk, BuildFailed(BuildFailureDisplay(NewRagSystem(apiKey, clientFailure).error.message)))
    ensures var rag := NewRagSystem(apiKey, clientFailure);
            |s.selectedDocs| > 0 && rag.Returned? ==>
              var b := CreateKnowledgeBase(rag.value, disk, split, DocumentsData(s.documents, s.selectedDocs, fetch), embed);
              b.failure.Some? ==> r == BuildRound(s, b.disk, BuildFailed(BuildFailureDisplay(b.failure.value.message)))
    ensures r.notice.Created? ==> r.notice == Created(|s.selectedDocs|) && r.session.ragSystem.Some? && r.disk == r.session.ragSystem.value.store
    ensures !r.notice.Created? ==> r.session == s
    ensures r.notice.Created? <==>
              && |s.selectedDocs| > 0
              && NewRagSystem(apiKey, clientFailure).Returned?
              && CreateKnowledgeBase(NewRagSystem(apiKey, clientFailure).value, disk, split,
                                     DocumentsData(s.documents, s.selectedDocs, fetch), embed).failure.None?
    ensures r.notice.Created? ==>
              && r.session == s.(ragSystem := r.session.ragSystem, knowledgeBaseCreated := true)
              && r.session.ragSystem.Some? && IsReady(r.session.ragSystem.value)
              && r.session.ragSystem.value.store.value.corpus == Assemble(split, DocumentsData(s.documents, s.selectedDocs, fetch))
  {
    if |s.selectedDocs| == 0 then BuildRound(s, disk, SelectAtLeastOne)
    else
      var data := DocumentsData(s.documents, s.selectedDocs, fetch);
      match NewRagSystem(apiKey, clientFailure)
      case Raised(e) => BuildRound(s, disk, BuildFailed(BuildFailureDisplay(e.message)))
      case Returned(rag) =>
        var b := CreateKnowledgeBase(rag, disk, split, data, embed);
        match b.failure
        case Some(e) => BuildRound(s, b.disk, BuildFailed(BuildFailureDisplay(e.message)))
        case None =>
          BuildRound(s.(ragSystem := Some(b.rag), knowledgeBaseCreated := true), b.disk, Created(|s.selectedDocs|))
  }

  /** A flag that was false becomes true only through a build that returned without error. */
  lemma KnowledgeBaseFlagNeedsSuccessfulBuild(
    s: Session, disk: Option<VectorStore>, fetch: GoogleDocs.Fetch,
    apiKey: Option<string>, clientFailure: Option<Error>, split: Splitter, embed: seq<string> -> Option<Error>)
    requires |s.documents| > 0 && !s.knowledgeBaseCreated
    requires CreateKnowledgeBaseRound(s, disk, fetch, apiKey, clientFailure, split, embed).session.knowledgeBaseCreated
    ensures CreateKnowledgeBaseRound(s, disk, fetch, apiKey, clientFailure, split, embed).notice.Created?
    ensures |Assemble(split, DocumentsData(s.documents, s.selectedDocs, fetch)).texts| > 0
  {
  }

  /** A missing or empty API key is reported by the button with the API-key
      advice alone, and a quota failure while the clients are built with the
      quota advice and the billing message; neither changes anything. */
  lemma ConstructorFailureShowsAdvice(
    s: Session, disk: Option<VectorStore>, fetch: GoogleDocs.Fetch,
    apiKey: Option<string>, clientFailure: Option<Error>, split: Splitter, embed: seq<string> -> Option<Error>)
    requires |s.documents| > 0 && |s.selectedDocs| > 0
    ensures apiKey.None? || apiKey == Some("") ==>
              (CreateKnowledgeBaseRound(s, disk, fetch, apiKey, clientFailure, split, embed)
               == BuildRound(s, disk, BuildFailed(ApiKeyText)))
    ensures && apiKey.Some? && apiKey.value != "" && clientFailure.Some?
            && IsQuotaMessage(clientFailure.value.message) ==>
              (CreateKnowledgeBaseRound(s, disk, fetch, apiKey, clientFailure, split, embed)
               == BuildRound(s, disk, BuildFailed(BuildQuotaText + QuotaMessage)))
  {
    MissingKeyShowsKeyAdvice();
    QuotaFailureShowsQuotaAdvice();
  }

  /** When every selected document reads as whitespace only (including those
      whose fetch failed), a working client still cannot build: the plain
      "no text" error is shown and the session and persist directory are
      left as they were. */
  lemma NothingReadableFailsBuild(
    s: Session, disk: Option<VectorStore>, fetch: GoogleDocs.Fetch,
    apiKey: Option<string>, clientFailure: Option<Error>, split: Splitter, embed: seq<string> -> Option<Error>)
    requires |s.documents| > 0 && |s.selectedDocs| > 0 && NewRagSystem(apiKey, clientFailure).Returned?
    requires forall d :: d in s.documents && d.id in s.selectedDocs ==> IsBlank(GoogleDocs.GetDocumentContent(fetch, d.id))
    ensures CreateKnowledgeBaseRound(s, disk, fetch, apiKey, clientFailure, split, embed)
         == BuildRound(s, disk, BuildFailed(BuildErrorText + NoTextMessage))
  {
    var data := DocumentsData(s.documents, s.selectedDocs, fetch);
    var picked := SelectedInfos(s.documents, s.selectedDocs);
    forall k | 0 <= k < |data|
      ensures EntryCount(split, data[k]) == 0
    {
      assert picked[k] in picked;
      assert data[k] == Fetched(picked[k], fetch);
    }
    EmptyCorpusIff(split, data);
    NoTextShowsPlainError();
  }

  /** A failure raised while embedding reaches the user classified: a quota
      failure shows the quota advice followed by the exception text, and the
      session is left as it was while the old store is gone. */
  lemma EmbeddingFailureIsShown(
    s: Session, disk: Option<VectorStore>, fetch: GoogleDocs.Fetch,
    apiKey: Option<string>, clientFailure: Option<Error>, split: Splitter, embed: seq<string> -> Option<Error>, e: Error)
    requires |s.documents| > 0 && |s.selectedDocs| > 0
    ensures var texts := Assemble(split, DocumentsData(s.documents, s.selectedDocs, fetch)).texts;
            NewRagSystem(apiKey, clientFailure).Returned? && |texts| > 0 && embed(texts) == Some(e) ==>
              (CreateKnowledgeBaseRound(s, disk, fetch, apiKey, clientFailure, split, embed)
               == BuildRound(s, None, BuildFailed(BuildFailureDisplay(e.message))))
    ensures var texts := Assemble(split, DocumentsData(s.documents, s.selectedDocs, fetch)).texts;
            NewRagSystem(apiKey, clientFailure).Returned? && |texts| > 0 && embed(texts) == Some(e) && IsQuotaMessage(e.message) ==>
              (CreateKnowledgeBaseRound(s, disk, fetch, apiKey, clientFailure, split, embed).notice
               == BuildFailed(BuildQuotaText + e.message))
  {
    QuotaTestSimplifies(e.message);
  }

  // ---------------------------------------------------------------------------
  // One question
  // ---------------------------------------------------------------------------

  /** What calling `rag_system.query` raises when no system is stored. */
  const NoRagSystemMessage := "'NoneType' object has no attribute 'query'"

  /** The assistant's chat entry for a question: the composed response, or the
      failure display for whatever was raised on the way. */
  function AssistantReply(s: Session, question: string, svc: Services): (reply: string)
    ensures s.ragSystem.None? ==> reply == QueryFailureDisplay(NoRagSystemMessage)
    ensures s.ragSystem.Some? && Query(s.ragSystem.value, question, svc).Raised? ==>
              reply == QueryFailureDisplay(Query(s.ragSystem.value, question, svc).error.message)
    ensures s.ragSystem.Some? && Query(s.ragSystem.value, question, svc).Returned? ==>
              var composed := ComposeResponse(Query(s.ragSystem.value, question, svc).value, FallbackAnswer(question, svc));
              reply == if composed.Returned? then composed.value else QueryFailureDisplay(composed.error.message)
  {
    match s.ragSystem
    case None => QueryFailureDisplay(NoRagSystemMessage)
    case Some(rag) =>
      match Query(rag, question, svc)
      case Raised(e) => QueryFailureDisplay(e.message)
      case Returned(result) =>
        match ComposeResponse(result, FallbackAnswer(question, svc))
        case Raised(e) => QueryFailureDisplay(e.message)
        case Returned(response) => response
  }

  /** Submitting a question in the chat box. The box exists only once the
      knowledge base is created, and an empty submission does nothing.
      Otherwise exactly two entries are appended, the user's question first
      and the assistant's reply second, and nothing else changes. */
  function AskQuestion(s: Session, question: string, svc: Services): (s': Session)
    ensures !s.knowledgeBaseCreated || question == "" ==> s' == s
    ensures s.knowledgeBaseCreated && question != "" ==>
              && |s'.chatHistory| == |s.chatHistory| + 2
              && s'.chatHistory[..|s.chatHistory|] == s.chatHistory
              && s'.chatHistory[|s.chatHistory|] == ChatEntry(User, question)
              && s'.chatHistory[|s.chatHistory| + 1].role == Assistant
              && s'.(chatHistory := s.chatHistory) == s
  {
    if !s.knowledgeBaseCreated || question == "" then s
    else s.(chatHistory := s.chatHistory + [ChatEntry(User, question), ChatEntry(Assistant, AssistantReply(s, question, svc))])
  }

  /** When the answer is judged not found and the fallback call succeeds, the
      assistant's entry is the warning prefix and the fallback answer; the
      grounded answer is not shown. When it is judged found, the entry starts
      with the grounded answer. */
  lemma ReplyFollowsVerdict(s: Session, question: string, svc: Services)
    requires s.ragSystem.Some? && Query(s.ragSystem.value, question, svc).Returned?
    ensures var result := Query(s.ragSystem.value, question, svc).value;
            !result.foundInDocs && FallbackAnswer(question, svc).Returned? ==>
              AssistantReply(s, question, svc) == FallbackPrefix + FallbackAnswer(question, svc).value
    ensures var result := Query(s.ragSystem.value, question, svc).value;
            result.foundInDocs ==> AssistantReply(s, question, svc)[..|result.answer|] == result.answer
    ensures var result := Query(s.ragSystem.value, question, svc).value;
            result.foundInDocs && |result.sources| == 0 ==> AssistantReply(s, question, svc) == result.answer
    ensures var result := Query(s.ragSystem.value, question, svc).value;
            result.foundInDocs && |result.sources| > 0 ==>
              (AssistantReply(s, question, svc)
               == result.answer + SourcesHeader + SourceLines(Dedup(SourceNames(result.sources))))
  {
  }

  /** Whatever is raised while answering reaches the chat as the failure
      display of its text: the missing system, a failing query, or a failing
      fallback call after a not-found verdict. */
  lemma FailuresReachTheChat(s: Session, question: string, svc: Services)
    requires s.knowledgeBaseCreated && question != ""
    ensures var reply := AskQuestion(s, question, svc).chatHistory[|s.chatHistory| + 1];
            s.ragSystem.None? ==> reply == ChatEntry(Assistant, QueryFailureDisplay(NoRagSystemMessage))
    ensures var reply := AskQuestion(s, question, svc).chatHistory[|s.chatHistory| + 1];
            s.ragSystem.Some? && Query(s.ragSystem.value, question, svc).Raised? ==>
              reply == ChatEntry(Assistant, QueryFailureDisplay(Query(s.ragSystem.value, question, svc).error.message))
    ensures var reply := AskQuestion(s, question, svc).chatHistory[|s.chatHistory| + 1];
            && s.ragSystem.Some? && Query(s.ragSystem.value, question, svc).Returned?
            && !Query(s.ragSystem.value, question, svc).value.foundInDocs
            && FallbackAnswer(question, svc).Raised? ==>
              reply == ChatEntry(Assistant, QueryFailureDisplay(FallbackAnswer(question, svc).error.message))
  {
  }

  /** A quota failure of the chat model, whether it answers the grounded prompt
      or the fallback question, shows the quota text in the chat. */
  lemma ChatQuotaFailureShowsQuotaText(s: Session, question: string, svc: Services, e: Error)
    requires s.knowledgeBaseCreated && question != "" && s.ragSystem.Some? && IsReady(s.ragSystem.value)
    requires IsQuotaMessage(e.message)
    ensures var reply := AskQuestion(s, question, svc).chatHistory[|s.chatHistory| + 1];
            && RetrieveSources(svc.retrieverInvoke, svc.similaritySearch(TOP_K_RESULTS), svc.legacy).Returned?
            && svc.chainRetrieval.Returned?
            && svc.chat(RenderPrompt(FormatDocs(svc.chainRetrieval.value), question)) == Raised(e) ==>
              reply == ChatEntry(Assistant, QueryQuotaText)
    ensures var reply := AskQuestion(s, question, svc).chatHistory[|s.chatHistory| + 1];
            && Query(s.ragSystem.value, question, svc).Returned?
            && !Query(s.ragSystem.value, question, svc).value.foundInDocs
            && svc.chat(question) == Raised(e) ==>
              reply == ChatEntry(Assistant, QueryQuotaText)
  {
    QuotaTestSimplifies(e.message);
    FailuresReachTheChat(s, question, svc);
  }
}

=== FILE: google_docs.dfy ===
/** Plain-text extraction from a Google Docs document resource
    (`GoogleDocsManager.get_document_content`, google_docs_manager.py).

    The document arrives as nested JSON. A structural element may hold a
    `paragraph`, a `table`, both keys, or neither. A paragraph's `elements`
    are text runs or other inline kinds. A table holds rows of cells, and
    each cell holds structural elements again. Where the Python code guards a
    loop with `if 'key' in d: for x in d['key']`, a missing key and an empty
    list behave identically, so those lists are plain sequences here; keys
    whose absence changes the outcome are `Option`s.
 */
module GoogleDocs {
  import opened Outcomes
  import opened Text

  /** A `textRun`; its `content` key may be missing. */
  datatype TextRun = TextRun(content: Option<string>)

  /** One entry of a paragraph's `elements`: a text run, or another inline kind
      (`None` here), such as an inline object or a page break. */
  datatype ParagraphElement = ParagraphElement(textRun: Option<TextRun>)

  datatype Paragraph = Paragraph(elements: seq<ParagraphElement>)

  datatype StructuralElement = StructuralElement(paragraph: Option<Paragraph>, table: Option<Table>)

  datatype Table = Table(tableRows: seq<TableRow>)

  datatype TableRow = TableRow(tableCells: seq<TableCell>)

  datatype TableCell = TableCell(content: seq<StructuralElement>)

  /** The document's `body`, whose `content` key may be missing. */
  datatype Body = Body(content: Option<seq<StructuralElement>>)

  /** A fetched document resource, whose `body` key may be missing. */
  datatype Document = Document(body: Option<Body>)

  // ---------------------------------------------------------------------------
  // The extraction as the source performs it: every call appends to one
  // shared list `text_content`, here threaded through as `acc`.
  // ---------------------------------------------------------------------------

  /** What one paragraph element appends: its run's `content` (or `""` when
      that key is missing) if it is a text run, nothing otherwise. */
  function RunContribution(pe: ParagraphElement): seq<string> {
    match pe.textRun
    case Some(run) => [run.content.GetOr("")]
    case None => []
  }

  /** The loop over a paragraph's elements. */
  function AppendRuns(elems: seq<ParagraphElement>, acc: seq<string>): seq<string> {
    if |elems| == 0 then acc else AppendRuns(elems[1..], acc + RunContribution(elems[0]))
  }

  /** `extract_text(element)`: `acc` is `text_content` before the call, the result is `text_content` after it. */
  function ExtractText(e: StructuralElement, acc: seq<string>): seq<string> {
    if e.paragraph.Some? then AppendRuns(e.paragraph.value.elements, acc)
    else if e.table.Some? then ExtractRows(e.table.value.tableRows, acc)
    else acc
  }

  /** The loop over a table's rows. */
  function ExtractRows(rows: seq<TableRow>, acc: seq<string>): seq<string> {
    if |rows| == 0 then acc else ExtractRows(rows[1..], ExtractCells(rows[0].tableCells, acc))
  }

  /** The loop over a row's cells. */
  function ExtractCells(cells: seq<TableCell>, acc: seq<string>): seq<string> {
    if |cells| == 0 then acc else ExtractCells(cells[1..], ExtractElements(cells[0].content, acc))
  }

  /** The loop over a sequence of structural elements (a cell's content, or the body). */
  function ExtractElements(es: seq<StructuralElement>, acc: seq<string>): seq<string> {
    if |es| == 0 then acc else ExtractElements(es[1..], ExtractText(es[0], acc))
  }

  /** `get_document_content` once the document has been fetched: the pieces
      gathered from the body, joined with `""` and stripped. */
  function DocumentContent(doc: Document): (r: string)
    ensures r == [] || (!IsSpace(r[0]) && !IsSpace(r[|r| - 1]))
    ensures doc.body.None? || doc.body.value.content.None? ==> r == ""
  {
    var pieces :=
      if doc.body.Some? && doc.body.value.content.Some? then ExtractElements(doc.body.value.content.value, [])
      else [];
    Strip(Concat(pieces))
  }

  /** The Docs API's `documents().get(documentId=...).execute()`: the
      document resource, or `None` when the call raises an `HttpError`. */
  type Fetch = string -> Option<Document>

  /** `get_document_content(document_id)`: an `HttpError` while fetching is
      swallowed and yields the empty text. */
  function GetDocumentContent(fetch: Fetch, id: string): (r: string)
    ensures r == [] || (!IsSpace(r[0]) && !IsSpace(r[|r| - 1]))
    ensures fetch(id).None? ==> r == ""
    ensures fetch(id).Some? ==> r == Strip(Concat(BodyPieces(fetch(id).value)))
  {
    match fetch(id)
    case None => ""
    case Some(doc) => DocumentContentIsStrippedBody(doc); DocumentContent(doc)
  }

  // ---------------------------------------------------------------------------
  // The same contributions defined element by element, without a shared list.
  // ---------------------------------------------------------------------------

  /** The text runs' contents of a paragraph, in order. */
  function Runs(elems: seq<ParagraphElement>): seq<string> {
    if |elems| == 0 then [] else RunContribution(elems[0]) + Runs(elems[1..])
  }

  /** Everything one structural element contributes. */
  function Pieces(e: StructuralElement): seq<string> {
    if e.paragraph.Some? then Runs(e.paragraph.value.elements)
    else if e.table.Some? then RowPieces(e.table.value.tableRows)
    else []
  }

  /** Table rows contribute their cells row by row. */
  function RowPieces(rows: seq<TableRow>): seq<string> {
    if |rows| == 0 then [] else CellPieces(rows[0].tableCells) + RowPieces(rows[1..])
  }

  /** Cells contribute their content cell by cell. */
  function CellPieces(cells: seq<TableCell>): seq<string> {
    if |cells| == 0 then [] else ElementPieces(cells[0].content) + CellPieces(cells[1..])
  }

  /** A sequence of structural elements contributes element by element. */
  function ElementPieces(es: seq<StructuralElement>): seq<string> {
    if |es| == 0 then [] else Pieces(es[0]) + ElementPieces(es[1..])
  }

  /** The text the body contributes before stripping. */
  function BodyPieces(doc: Document): seq<string> {
    if doc.body.Some? && doc.body.value.content.Some? then ElementPieces(doc.body.value.content.value) else []
  }

  // ---------------------------------------------------------------------------
  // The shared-list extraction appends exactly the element-wise contributions.
  // ---------------------------------------------------------------------------

  lemma {:induction false} AppendRunsAppends(elems: seq<ParagraphElement>, acc: seq<string>)
    ensures AppendRuns(elems, acc) == acc + Runs(elems)
  {
    if |elems| > 0 {
      AppendRunsAppends(elems[1..], acc + RunContribution(elems[0]));
    }
  }

  lemma {:induction false} ExtractTextAppends(e: StructuralElement, acc: seq<string>)
    ensures ExtractText(e, acc) == acc + Pieces(e)
  {
    if e.paragraph.Some? {
      AppendRunsAppends(e.paragraph.value.elements, acc);
    } else if e.table.Some? {
      ExtractRowsAppends(e.table.value.tableRows, acc);
    }
  }

  lemma {:induction false} ExtractRowsAppends(rows: seq<TableRow>, acc: seq<string>)
    ensures ExtractRows(rows, acc) == acc + RowPieces(rows)
  {
    if |rows| > 0 {
      ExtractCellsAppends(rows[0].tableCells, acc);
      ExtractRowsAppends(rows[1..], ExtractCells(rows[0].tableCells, acc));
    }
  }

  lemma {:induction false} ExtractCellsAppends(cells: seq<TableCell>, acc: seq<string>)
    ensures ExtractCells(cells, acc) == acc + CellPieces(cells)
  {
    if |cells| > 0 {
      ExtractElementsAppends(cells[0].content, acc);
      ExtractCellsAppends(cells[1..], ExtractElements(cells[0].content, acc));
    }
  }

  lemma {:induction false} ExtractElementsAppends(es: seq<StructuralElement>, acc: seq<string>)
    ensures ExtractElements(es, acc) == acc + ElementPieces(es)
  {
    if |es| > 0 {
      ExtractTextAppends(es[0], acc);
      ExtractElementsAppends(es[1..], ExtractText(es[0], acc));
    }
  }

  /** The document's text is the stripped concatenation of every contribution of the body, in body order. */
  lemma DocumentContentIsStrippedBody(doc: Document)
    ensures DocumentContent(doc) == Strip(Concat(BodyPieces(doc)))
    ensures Strip(DocumentContent(doc)) == DocumentContent(doc)
  {
    StripIdempotent(Concat(BodyPieces(doc)));
    if doc.body.Some? && doc.body.value.content.Some? {
      var es := doc.body.value.content.value;
      ExtractElementsAppends(es, []);
      assert [] + ElementPieces(es) == ElementPieces(es);
    }
  }

  // ---------------------------------------------------------------------------
  // What each kind of element contributes.
  // ---------------------------------------------------------------------------

  lemma {:induction false} RunsAppend(xs: seq<ParagraphElement>, ys: seq<ParagraphElement>)
    ensures Runs(xs + ys) == Runs(xs) + Runs(ys)
  {
    if |xs| == 0 {
      assert xs + ys == ys;
    } else {
      var zs := xs + ys;
      assert zs[0] == xs[0];
      assert zs[1..] == xs[1..] + ys;
      RunsAppend(xs[1..], ys);
      assert Runs(zs) == RunContribution(xs[0]) + (Runs(xs[1..]) + Runs(ys));
    }
  }


  /** Within a paragraph the text runs contribute in order, one piece each:
      a run's `content`, or `""` when that key is missing. Any other paragraph
      element contributes nothing wherever it stands. */
  lemma ParagraphContributions(xs: seq<ParagraphElement>, pe: ParagraphElement, ys: seq<ParagraphElement>)
    ensures pe.textRun.Some? ==> Runs(xs + [pe] + ys) == Runs(xs) + [pe.textRun.value.content.GetOr("")] + Runs(ys)
    ensures pe.textRun.None? ==> Runs(xs + [pe] + ys) == Runs(xs + ys)
  {
    RunsAppend(xs + [pe], ys);
    RunsAppend(xs, [pe]);
    assert Runs([pe]) == RunContribution(pe) + Runs([pe][1..]);
    assert [pe][1..] == [];
    if pe.textRun.None? {
      RunsAppend(xs, ys);
    }
  }

  /** A paragraph element contributes its runs even when it also carries a
      table key; an element that is neither a paragraph nor a table
      contributes nothing; a table contributes its rows in row-major order. */
  lemma ElementKinds(e: StructuralElement, acc: seq<string>)
    ensures e.paragraph.Some? ==> ExtractText(e, acc) == acc + Runs(e.paragraph.value.elements)
    ensures e.paragraph.None? && e.table.None? ==> ExtractText(e, acc) == acc
    ensures e.paragraph.None? && e.table.Some? ==> ExtractText(e, acc) == acc + RowPieces(e.table.value.tableRows)
  {
    ExtractTextAppends(e, acc);
  }

  /** Rows, cells and elements all contribute in sequence order: splitting any
      of these lists splits its contribution at the same point. */
  lemma {:induction false} RowPiecesAppend(xs: seq<TableRow>, ys: seq<TableRow>)
    ensures RowPieces(xs + ys) == RowPieces(xs) + RowPieces(ys)
  {
    if |xs| == 0 {
      assert xs + ys == ys;
    } else {
      var zs := xs + ys;
      assert zs[0] == xs[0];
      assert zs[1..] == xs[1..] + ys;
      RowPiecesAppend(xs[1..], ys);
      assert RowPieces(zs) == CellPieces(xs[0].tableCells) + (RowPieces(xs[1..]) + RowPieces(ys));
    }
  }


  lemma {:induction false} CellPiecesAppend(xs: seq<TableCell>, ys: seq<TableCell>)
    ensures CellPieces(xs + ys) == CellPieces(xs) + CellPieces(ys)
  {
    if |xs| == 0 {
      assert xs + ys == ys;
    } else {
      var zs := xs + ys;
      assert zs[0] == xs[0];
      assert zs[1..] == xs[1..] + ys;
      CellPiecesAppend(xs[1..], ys);
      assert CellPieces(zs) == ElementPieces(xs[0].content) + (CellPieces(xs[1..]) + CellPieces(ys));
    }
  }


  lemma {:induction false} ElementPiecesAppend(xs: seq<StructuralElement>, ys: seq<StructuralElement>)
    ensures ElementPieces(xs + ys) == ElementPieces(xs) + ElementPieces(ys)
  {
    if |xs| == 0 {
      assert xs + ys == ys;
    } else {
      var zs := xs + ys;
      assert zs[0] == xs[0];
      assert zs[1..] == xs[1..] + ys;
      ElementPiecesAppend(xs[1..], ys);
      assert ElementPieces(zs) == Pieces(xs[0]) + (ElementPieces(xs[1..]) + ElementPieces(ys));
    }
  }


  /** A one-cell table whose cell holds one paragraph contributes exactly that paragraph's runs. */
  lemma SingleCellTable(p: Paragraph, acc: seq<string>)
    ensures ExtractText(StructuralElement(None, Some(Table([TableRow([TableCell([StructuralElement(Some(p), None)])])]))), acc)
         == acc + Runs(p.elements)
  {
    var e := StructuralElement(Some(p), None);
    var cell := TableCell([e]);
    var row := TableRow([cell]);
    ExtractTextAppends(StructuralElement(None, Some(Table([row]))), acc);
    assert ElementPieces([e]) == Pieces(e) + ElementPieces([]);
    assert CellPieces([cell]) == ElementPieces([e]) + CellPieces([]);
    assert RowPieces([row]) == CellPieces([cell]) + RowPieces([]);
  }

  /** Splitting the body's element list splits the document's text: the text
      is the strip of the first part's contributions joined to the second's. */
  lemma BodySplitsText(doc: Document, xs: seq<StructuralElement>, ys: seq<StructuralElement>)
    requires doc.body.Some? && doc.body.value.content == Some(xs + ys)
    ensures DocumentContent(doc) == Strip(Concat(ElementPieces(xs)) + Concat(ElementPieces(ys)))
  {
    DocumentContentIsStrippedBody(doc);
    ElementPiecesAppend(xs, ys);
    ConcatAppend(ElementPieces(xs), ElementPieces(ys));
  }
}

=== FILE: knowledge_base.dfy ===
/** Knowledge-base assembly (`RAGSystem.create_knowledge_base`, rag_system.py):
    the documents' chunks become two parallel lists, the texts and their
    metadata, which are handed to the vector store. Also the context block
    (`format_docs`) and the grounding prompt built around it.

    The text splitter is LangChain's `RecursiveCharacterTextSplitter`; its
    algorithm is not part of this model, so it enters as an uninterpreted
    function of the configured chunk size, the overlap and the content.
 */
module KnowledgeBase {
  import opened Outcomes
  import opened Text

  /** Splitter configuration (config.py). */
  const CHUNK_SIZE: nat := 1000
  const CHUNK_OVERLAP: nat := 200

  /** One entry of `documents_data`. */
  datatype SourceDocument = SourceDocument(id: string, name: string, content: string)

  /** The metadata stored beside each chunk text. */
  datatype ChunkMetadata = ChunkMetadata(documentId: string, documentName: string, chunkIndex: nat)

  /** The page contents of `text_splitter.create_documents([content])`, given
      `chunk_size`, `chunk_overlap` and the content. */
  type Splitter = (nat, nat, string) -> seq<string>

  /** `all_texts` and `metadatas`, the parallel lists given to the vector store. */
  datatype Corpus = Corpus(texts: seq<string>, metadatas: seq<ChunkMetadata>)

  const EmptyCorpus := Corpus([], [])

  function Chunks(split: Splitter, d: SourceDocument): seq<string> {
    split(CHUNK_SIZE, CHUNK_OVERLAP, d.content)
  }

  /** What one document adds: nothing when its content is whitespace only,
      otherwise each chunk with the document's id and name and its 0-based
      position among that document's chunks. */
  function DocumentEntries(split: Splitter, d: SourceDocument): Corpus {
    if IsBlank(d.content) then EmptyCorpus
    else
      var chunks := Chunks(split, d);
      Corpus(chunks, ChunkMetadatas(d, |chunks|))
  }

  /** How many entries a document adds. */
  function EntryCount(split: Splitter, d: SourceDocument): nat {
    if IsBlank(d.content) then 0 else |Chunks(split, d)|
  }

  function Append(a: Corpus, b: Corpus): Corpus {
    Corpus(a.texts + b.texts, a.metadatas + b.metadatas)
  }

  /** The documents' entries laid end to end in input order. */
  function Assemble(split: Splitter, docs: seq<SourceDocument>): (c: Corpus)
    ensures |c.texts| == |c.metadatas|
  {
    if |docs| == 0 then EmptyCorpus
    else Append(Assemble(split, docs[..|docs| - 1]), DocumentEntries(split, docs[|docs| - 1]))
  }

  /** The numbered metadata of one document's chunks. */
  function ChunkMetadatas(d: SourceDocument, n: nat): seq<ChunkMetadata> {
    seq(n, i requires 0 <= i < n => ChunkMetadata(d.id, d.name, i))
  }

  /** The outer loop of `create_knowledge_base` over `documents_data`:
      whitespace-only documents are skipped with `continue`, every other
      document's chunks are appended. */
  method CollectChunks(split: Splitter, docs: seq<SourceDocument>) returns (allTexts: seq<string>, metadatas: seq<ChunkMetadata>)
    ensures Corpus(allTexts, metadatas) == Assemble(split, docs)
    ensures |allTexts| == |metadatas|
  {
    allTexts := [];
    metadatas := [];
    for k := 0 to |docs|
      invariant Corpus(allTexts, metadatas) == Assemble(split, docs[..k])
    {
      var doc := docs[k];
      assert docs[..k + 1][..k] == docs[..k];
      StripEmptyIffBlank(doc.content);
      if Strip(doc.content) == "" {
        continue;
      }
      var chunks := split(CHUNK_SIZE, CHUNK_OVERLAP, doc.content);
      allTexts, metadatas := AppendChunks(allTexts, metadatas, doc, chunks);
    }
    assert docs[..|docs|] == docs;
  }

  /** The inner loop: `for i, chunk in enumerate(chunks)` appends the chunk's
      text and its metadata with `chunk_index` `i`. */
  method AppendChunks(texts: seq<string>, metas: seq<ChunkMetadata>, doc: SourceDocument, chunks: seq<string>)
    returns (texts': seq<string>, metas': seq<ChunkMetadata>)
    ensures texts' == texts + chunks
    ensures metas' == metas + ChunkMetadatas(doc, |chunks|)
  {
    texts', metas' := texts, metas;
    for i := 0 to |chunks|
      invariant texts' == texts + chunks[..i]
      invariant metas' == metas + ChunkMetadatas(doc, i)
    {
      texts' := texts' + [chunks[i]];
      metas' := metas' + [ChunkMetadata(doc.id, doc.name, i)];
    }
    assert chunks[..|chunks|] == chunks;
  }

  /** Appending corpora is associative. */
  lemma AppendAssociative(x: Corpus, y: Corpus, z: Corpus)
    ensures Append(Append(x, y), z) == Append(x, Append(y, z))
  {
  }

  /** Adding one document at the end appends its entries. */
  lemma AssembleSnoc(split: Splitter, xs: seq<SourceDocument>, x: SourceDocument)
    ensures Assemble(split, xs + [x]) == Append(Assemble(split, xs), DocumentEntries(split, x))
  {
  }

  /** Assembling two document lists one after the other is assembling their concatenation. */
  lemma {:induction false} AssembleConcat(split: Splitter, a: seq<SourceDocument>, b: seq<SourceDocument>)
    ensures Assemble(split, a + b) == Append(Assemble(split, a), Assemble(split, b))
    decreases |b|
  {
    if |b| == 0 {
      assert a + b == a;
    } else {
      var b', last := b[..|b| - 1], b[|b| - 1];
      assert b == b' + [last];
      assert a + b == (a + b') + [last];
      AssembleConcat(split, a, b');
      AssembleSnoc(split, a + b', last);
      AssembleSnoc(split, b', last);
      AppendAssociative(Assemble(split, a), Assemble(split, b'), DocumentEntries(split, last));
    }
  }

  /** A whitespace-only document contributes no texts and no metadata, wherever it stands. */
  lemma BlankDocumentContributesNothing(split: Splitter, a: seq<SourceDocument>, d: SourceDocument, b: seq<SourceDocument>)
    requires IsBlank(d.content)
    ensures Assemble(split, a + [d] + b) == Assemble(split, a + b)
  {
    AssembleConcat(split, a + [d], b);
    AssembleConcat(split, a, [d]);
    AssembleConcat(split, a, b);
    assert [d][..0] == [];
  }

  /** Where document `k`'s entries start: the number of entries before it. */
  function Offset(split: Splitter, docs: seq<SourceDocument>, k: nat): nat
    requires k <= |docs|
  {
    |Assemble(split, docs[..k]).texts|
  }

  /** The entries are laid out document by document: document `k` occupies
      `EntryCount` consecutive positions starting at its offset, and the last
      document ends where the lists end. */
  lemma OffsetStep(split: Splitter, docs: seq<SourceDocument>, k: nat)
    requires k < |docs|
    ensures Offset(split, docs, k + 1) == Offset(split, docs, k) + EntryCount(split, docs[k])
    ensures Offset(split, docs, |docs|) == |Assemble(split, docs).texts|
  {
    assert docs[..k + 1][..k] == docs[..k];
    assert docs[..|docs|] == docs;
  }

  /** Inside its block, document `k`'s `j`-th entry is its `j`-th chunk, tagged
      with its id, its name and chunk index `j`. */
  lemma AssembleLayout(split: Splitter, docs: seq<SourceDocument>, k: nat, j: nat)
    requires k < |docs| && j < EntryCount(split, docs[k])
    ensures Offset(split, docs, k) + j < |Assemble(split, docs).texts|
    ensures Assemble(split, docs).texts[Offset(split, docs, k) + j] == Chunks(split, docs[k])[j]
    ensures Assemble(split, docs).metadatas[Offset(split, docs, k) + j] == ChunkMetadata(docs[k].id, docs[k].name, j)
  {
    var before := docs[..k];
    var after := docs[k + 1..];
    assert docs == before + [docs[k]] + after;
    AssembleConcat(split, before + [docs[k]], after);
    AssembleConcat(split, before, [docs[k]]);
    assert [docs[k]][..0] == [];
  }

  /** Nothing is collected exactly when every document is whitespace only or
      the splitter returns no chunk for it. */
  lemma {:induction false} EmptyCorpusIff(split: Splitter, docs: seq<SourceDocument>)
    ensures |Assemble(split, docs).texts| == 0 <==> forall k :: 0 <= k < |docs| ==> EntryCount(split, docs[k]) == 0
  {
    if |docs| > 0 {
      var init := docs[..|docs| - 1];
      EmptyCorpusIff(split, init);
      assert forall k :: 0 <= k < |init| ==> init[k] == docs[k];
    }
  }

  // ---------------------------------------------------------------------------
  // The context block and the grounding prompt.
  // ---------------------------------------------------------------------------

  /** A chunk as the vector store hands it back: its page content and the
      `document_name` entry of its metadata, which may be absent. */
  datatype RetrievedChunk = RetrievedChunk(pageContent: string, documentName: Option<string>)

  const ContextSeparator := "\n\n"

  function PageContents(docs: seq<RetrievedChunk>): seq<string> {
    seq(|docs|, i requires 0 <= i < |docs| => docs[i].pageContent)
  }

  /** `format_docs`: the retrieved page contents in rank order, separated by a blank line. */
  function FormatDocs(docs: seq<RetrievedChunk>): string {
    Join(ContextSeparator, PageContents(docs))
  }

  /** No chunks give the empty context block, and one chunk gives its text unchanged. */
  lemma FormatDocsSmall(c: RetrievedChunk)
    ensures FormatDocs([]) == ""
    ensures FormatDocs([c]) == c.pageContent
  {
    assert PageContents([c]) == [c.pageContent];
  }

  /** The context block holds each chunk in rank order: between any two
      consecutive chunks stands exactly one blank-line separator. */
  lemma FormatDocsLayout(docs: seq<RetrievedChunk>, i: int)
    requires 0 < i < |docs|
    ensures FormatDocs(docs) == FormatDocs(docs[..i]) + ContextSeparator + FormatDocs(docs[i..])
  {
    JoinSplit(ContextSeparator, PageContents(docs), i);
    assert PageContents(docs)[..i] == PageContents(docs[..i]);
    assert PageContents(docs)[i..] == PageContents(docs[i..]);
  }

  const PromptHead :=
    "Use the following pieces of context to answer the question at the end.\n"
    + "        If you don't know the answer, just say that you don't know from the provided context.\n"
    + "        Use only the information from the context provided.\n"
    + "        \n"
    + "        Context: "
  const PromptMiddle := "\n        \n        Question: "
  const PromptTail := "\n        \n        Answer:"

  /** The prompt template with `{context}` and `{question}` filled in. */
  function RenderPrompt(context: string, question: string): (prompt: string)
    ensures OccursAt(context, prompt, |PromptHead|)
    ensures OccursAt(question, prompt, |PromptHead| + |context| + |PromptMiddle|)
    ensures prompt[..|PromptHead|] == PromptHead
  {
    var prompt := PromptHead + context + PromptMiddle + question + PromptTail;
    assert prompt[|PromptHead|..|PromptHead| + |context|] == context;
    assert prompt[|PromptHead| + |context| + |PromptMiddle|..|PromptHead| + |context| + |PromptMiddle| + |question|] == question;
    prompt
  }
}

=== FILE: outcomes.dfy ===
/** Failure-carrying values shared by every part of the model.

    The Python code signals failure by raising exceptions; the model makes each
    raise an explicit value. Only the exception's message matters downstream,
    because the UI classifies failures by inspecting `str(e)`.
 */
module Outcomes {

  /** A value that may be absent: a missing dictionary key, an unset attribute. */
  datatype Option<+T> = None | Some(value: T) {

    /** The value, or `default` when absent (Python's `dict.get(key, default)`). */
    function GetOr(default: T): T {
      match this
      case Some(v) => v
      case None => default
    }
  }

  /** A raised exception, reduced to the text `str(e)` would give. */
  datatype Error = Error(message: string)

  /** The outcome of a call that either returns a value or raises. */
  datatype Attempt<+T> = Returned(value: T) | Raised(error: Error)
}

=== FILE: rag_system.dfy ===
/** The `RAGSystem` object (rag_system.py): construction, the knowledge-base
    build, and answering a question with the groundedness verdict that decides
    whether the user sees the grounded answer or a general-knowledge one.

    OpenAI, Chroma and LangChain are not modelled. Each call into them is an
    input: the outcome it had (`Attempt`), or a function from what was sent
    to what came back.
 */
module RagSystem {
  import opened Outcomes
  import opened Text
  import opened KnowledgeBase

  /** How many chunks the retriever and the similarity search ask for (config.py). */
  const TOP_K_RESULTS: nat := 3

  const MissingKeyMessage := "OPENAI_API_KEY" + " not found in environment variables"
  const QuotaMessage :=
    "OpenAI API " + "quota" + " exceeded. " + "Please check your billing and quota at https://platform.openai.com/account/billing"
  const NoTextMessage := "No text content found in selected documents"
  const NotInitializedMessage := "Knowledge base not initialized. Please add documents first."

  // ---------------------------------------------------------------------------
  // Quota failures
  // ---------------------------------------------------------------------------

  /** The test both the constructor and the UI apply to an exception's text to
      recognise an OpenAI quota or rate-limit failure. */
  predicate IsQuotaMessage(msg: string) {
    Contains(ToLower(msg), "quota") || Contains(msg, "429") || Contains(ToLower(msg), "insufficient_quota")
  }

  /** The third disjunct of the quota test adds nothing: a message is a quota
      message exactly when its lowered text contains "quota" or its raw text
      contains "429". */
  lemma QuotaTestSimplifies(msg: string)
    ensures IsQuotaMessage(msg) <==> IsSubstring("quota", ToLower(msg)) || IsSubstring("429", msg)
  {
    if IsSubstring("insufficient_quota", ToLower(msg)) {
      assert "insufficient_quota"[13..18] == "quota";
      assert OccursAt("quota", "insufficient_quota", 13);
      SubstringTransitive("quota", "insufficient_quota", ToLower(msg));
    }
  }

  /** The constructor's own quota message passes the quota test. */
  lemma QuotaMessageIsQuota()
    ensures IsQuotaMessage(QuotaMessage)
  {
    var lowered := ToLower(QuotaMessage);
    assert QuotaMessage[11..16] == "quota";
    forall j | 11 <= j < 16
      ensures lowered[j] == QuotaMessage[j]
    {
      assert QuotaMessage[j] == "quota"[j - 11];
    }
    assert lowered[11..16] == "quota";
    assert OccursAt("quota", lowered, 11);
  }

  /** The missing-key error is not mistaken for a quota failure. */
  lemma MissingKeyIsNotQuota()
    ensures !IsQuotaMessage(MissingKeyMessage)
  {
    var m := MissingKeyMessage;
    var lowered := ToLower(m);
    assert forall i :: 0 <= i < |m| ==> m[i] != 'q' && m[i] != 'Q' && m[i] != '4';
    assert forall i :: 0 <= i < |lowered| ==> lowered[i] == LowerChar(m[i]) != 'q';
    AbsentCharNotSubstring("quota", lowered, 0);
    AbsentCharNotSubstring("insufficient_quota", lowered, 13);
    AbsentCharNotSubstring("429", m, 0);
  }

  /** Neither is the error for a build that collected no text. */
  lemma NoTextIsNotQuota()
    ensures !IsQuotaMessage(NoTextMessage)
  {
    var m := NoTextMessage;
    var lowered := ToLower(m);
    assert forall i :: 0 <= i < |m| ==> m[i] != 'q' && m[i] != 'Q' && m[i] != '4';
    assert forall i :: 0 <= i < |lowered| ==> lowered[i] == LowerChar(m[i]) != 'q';
    AbsentCharNotSubstring("quota", lowered, 0);
    AbsentCharNotSubstring("insufficient_quota", lowered, 13);
    AbsentCharNotSubstring("429", m, 0);
  }

  // ---------------------------------------------------------------------------
  // State
  // ---------------------------------------------------------------------------

  /** A built vector store: the texts and metadata it holds. Embedding vectors are not modelled. */
  datatype VectorStore = VectorStore(corpus: Corpus)

  /** A `RAGSystem` instance. `vector_store`, `retriever` and `qa_chain` are
      assigned together at the end of a successful build and never separately,
      so one optional store stands for all three. */
  datatype Rag = Rag(store: Option<VectorStore>)

  /** `qa_chain` is set. */
  predicate IsReady(rag: Rag) {
    rag.store.Some?
  }

  /** `RAGSystem()`: `apiKey` is the `OPENAI_API_KEY` setting, `clientFailure`
      what constructing the OpenAI clients raised, if anything. A missing or
      empty key is refused first; a client failure that passes the quota test
      is replaced by the billing message, any other is re-raised unchanged. */
  function NewRagSystem(apiKey: Option<string>, clientFailure: Option<Error>): (r: Attempt<Rag>)
    ensures r.Returned? <==> apiKey.Some? && apiKey.value != "" && clientFailure.None?
    ensures r.Returned? ==> !IsReady(r.value)
    ensures apiKey.None? || apiKey.value == "" ==> r == Raised(Error(MissingKeyMessage))
    ensures apiKey.Some? && apiKey.value != "" && clientFailure.Some? ==>
              r.Raised? && (IsQuotaMessage(r.error.message) <==> IsQuotaMessage(clientFailure.value.message))
    ensures apiKey.Some? && apiKey.value != "" && clientFailure.Some? ==>
              r == (if IsQuotaMessage(clientFailure.value.message) then Raised(Error(QuotaMessage)) else Raised(clientFailure.value))
  {
    if apiKey.None? || apiKey.value == "" then Raised(Error(MissingKeyMessage))
    else if clientFailure.Some? then
      var e := clientFailure.value;
      if IsQuotaMessage(e.message) then QuotaMessageIsQuota(); Raised(Error(QuotaMessage))
      else Raised(e)
    else Returned(Rag(None))
  }

  // ---------------------------------------------------------------------------
  // Building the knowledge base
  // ---------------------------------------------------------------------------

  /** After a build: the `RAGSystem` instance, what lies at the persist
      directory, and the exception raised, if any. */
  datatype Build = Build(rag: Rag, disk: Option<VectorStore>, failure: Option<Error>)

  /** `create_knowledge_base`. `disk` is what lies at `VECTOR_STORE_PATH`
      beforehand; `embed` tells whether embedding the given texts raises. */
  function CreateKnowledgeBase(
    rag: Rag, disk: Option<VectorStore>, split: Splitter, docs: seq<SourceDocument>,
    embed: seq<string> -> Option<Error>): (b: Build)
    ensures var c := Assemble(split, docs);
            b.failure.None? <==> |c.texts| > 0 && embed(c.texts).None?
    ensures |Assemble(split, docs).texts| == 0 ==> b == Build(rag, disk, Some(Error(NoTextMessage)))
    ensures b.failure.Some? ==> b.rag == rag
    ensures b.failure.None? ==> IsReady(b.rag) && b.rag.store.value.corpus == Assemble(split, docs) && b.disk == b.rag.store
    ensures |Assemble(split, docs).texts| > 0 && b.failure.Some? ==> b.disk.None?
    ensures |Assemble(split, docs).texts| > 0 ==> b.failure == embed(Assemble(split, docs).texts)
  {
    var corpus := Assemble(split, docs);
    if |corpus.texts| == 0 then
      Build(rag, disk, Some(Error(NoTextMessage)))
    else
      // The old store is deleted before the new one is written.
      match embed(corpus.texts)
      case Some(e) => Build(rag, None, Some(e))
      case None =>
        var store := VectorStore(corpus);
        Build(Rag(Some(store)), Some(store), None)
  }

  /** A rebuild keeps nothing of the previous knowledge base: two successful
      builds from the same documents produce the same store whatever state
      they started from, and every stored entry is a chunk of one of the
      documents of this build, tagged with that document's id and name. */
  lemma RebuildDiscardsPreviousStore(
    rag1: Rag, disk1: Option<VectorStore>, rag2: Rag, disk2: Option<VectorStore>,
    split: Splitter, docs: seq<SourceDocument>, embed: seq<string> -> Option<Error>, i: nat)
    requires CreateKnowledgeBase(rag1, disk1, split, docs, embed).failure.None?
    ensures CreateKnowledgeBase(rag2, disk2, split, docs, embed) == CreateKnowledgeBase(rag1, disk1, split, docs, embed)
    ensures var c := CreateKnowledgeBase(rag1, disk1, split, docs, embed).rag.store.value.corpus;
            i < |c.texts| ==> exists k :: 0 <= k < |docs| && StoredFrom(c, i, split, docs[k])
  {
    var c := Assemble(split, docs);
    if i < |c.texts| {
      EntryTracesToDocument(split, docs, i);
    }
  }

  /** Entry `i` of the corpus is a chunk of document `d`, tagged with its id, name and chunk index. */
  ghost predicate StoredFrom(c: Corpus, i: nat, split: Splitter, d: SourceDocument)
    requires i < |c.texts| && |c.texts| == |c.metadatas|
  {
    var m := c.metadatas[i];
    && m.documentId == d.id
    && m.documentName == d.name
    && m.chunkIndex < |Chunks(split, d)|
    && c.texts[i] == Chunks(split, d)[m.chunkIndex]
  }

  lemma {:induction false} EntryTracesToDocument(split: Splitter, docs: seq<SourceDocument>, i: nat)
    requires i < |Assemble(split, docs).texts|
    ensures exists k :: 0 <= k < |docs| && StoredFrom(Assemble(split, docs), i, split, docs[k])
  {
    var n := |docs|;
    var init := docs[..n - 1];
    var before := Assemble(split, init);
    var c := Assemble(split, docs);
    if i < |before.texts| {
      EntryTracesToDocument(split, init, i);
      var k :| 0 <= k < |init| && StoredFrom(before, i, split, init[k]);
      assert init[k] == docs[k];
      assert StoredFrom(c, i, split, docs[k]);
    } else {
      assert StoredFrom(c, i, split, docs[n - 1]);
    }
  }

  // ---------------------------------------------------------------------------
  // Answering a question
  // ---------------------------------------------------------------------------

  /** The old retriever method `get_relevant_documents`: missing, or present with the outcome of calling it. */
  datatype LegacyRetrieval = NoLegacyMethod | LegacyMethod(outcome: Attempt<seq<RetrievedChunk>>)

  /** How the external services respond while one question is answered. */
  datatype Services = Services(
    retrieverInvoke: Attempt<seq<RetrievedChunk>>,        // retriever.invoke(question)
    similaritySearch: nat -> Attempt<seq<RetrievedChunk>>, // vector_store.similarity_search(question, k)
    legacy: LegacyRetrieval,                                // getattr(retriever, 'get_relevant_documents', ...)
    chainRetrieval: Attempt<seq<RetrievedChunk>>,         // the chain's own call of the retriever
    chat: string -> Attempt<string>)                       // the chat model, given the text of one user message

  /** The three-step retrieval of `source_docs`: `invoke`; if that raises, the
      similarity search; if that raises too, the old method, or the empty list
      when the retriever lacks it. */
  function RetrieveSources(invoke: Attempt<seq<RetrievedChunk>>, search: Attempt<seq<RetrievedChunk>>, legacy: LegacyRetrieval)
    : (r: Attempt<seq<RetrievedChunk>>)
    ensures invoke.Returned? ==> r == invoke
    ensures r.Raised? <==> invoke.Raised? && search.Raised? && legacy.LegacyMethod? && legacy.outcome.Raised?
    ensures invoke.Raised? && search.Returned? ==> r == search
    ensures invoke.Raised? && search.Raised? && legacy.LegacyMethod? ==> r == legacy.outcome
    ensures invoke.Raised? && search.Raised? && legacy.NoLegacyMethod? ==> r == Returned([])
  {
    match invoke
    case Returned(_) => invoke
    case Raised(_) =>
      match search
      case Returned(_) => search
      case Raised(_) =>
        match legacy
        case NoLegacyMethod => Returned([])
        case LegacyMethod(outcome) => outcome
  }

  /** The outcome of trying `tries` in order: the first one that returned, or
      `last` when every one of them raised. */
  ghost function FirstReturned<T>(tries: seq<Attempt<T>>, last: Attempt<T>): Attempt<T> {
    if |tries| == 0 then last
    else if tries[0].Returned? then tries[0]
    else FirstReturned(tries[1..], last)
  }

  /** What the retrieval falls back to once `invoke` and the similarity search have both raised. */
  function LastResort(legacy: LegacyRetrieval): Attempt<seq<RetrievedChunk>> {
    match legacy
    case NoLegacyMethod => Returned([])
    case LegacyMethod(outcome) => outcome
  }

  /** The retrieval is a plain fallback chain: the first of `invoke`, the
      similarity search and the old method that returns wins. */
  lemma RetrieveSourcesIsFallbackChain(invoke: Attempt<seq<RetrievedChunk>>, search: Attempt<seq<RetrievedChunk>>, legacy: LegacyRetrieval)
    ensures RetrieveSources(invoke, search, legacy) == FirstReturned([invoke, search], LastResort(legacy))
  {
    var last := LastResort(legacy);
    assert [invoke, search][1..] == [search];
    assert [search][1..] == [];
    assert FirstReturned([search], last) == if search.Returned? then search else FirstReturned([], last);
    assert FirstReturned([invoke, search], last) == if invoke.Returned? then invoke else FirstReturned([search], last);
  }

  /** The phrases whose presence in the lowered answer marks it as not found in the documents. */
  const NegativePhrases: seq<string> := ["i don't know", "i do not know", "not provided", "cannot determine", "not found"]

  /** `any(phrase in text for phrase in phrases)`. */
  function AnyPhraseIn(phrases: seq<string>, text: string): (r: bool)
    ensures r <==> exists k :: 0 <= k < |phrases| && IsSubstring(phrases[k], text)
  {
    if |phrases| == 0 then false
    else
      assert forall k :: 0 < k < |phrases| ==> phrases[1..][k - 1] == phrases[k];
      Contains(text, phrases[0]) || AnyPhraseIn(phrases[1..], text)
  }

  /** `found_in_docs`: at least one chunk was retrieved, and the lowered answer
      contains none of the negative phrases. */
  function FoundInDocs(sources: seq<RetrievedChunk>, answer: string): (found: bool)
    ensures found <==> |sources| > 0 && forall k :: 0 <= k < |NegativePhrases| ==> !IsSubstring(NegativePhrases[k], ToLower(answer))
  {
    |sources| > 0 && !AnyPhraseIn(NegativePhrases, ToLower(answer))
  }

  /** The verdict ignores letter case: answers that differ only in case get the same verdict. */
  lemma FoundInDocsIgnoresCase(sources: seq<RetrievedChunk>, a: string, b: string)
    requires SameIgnoringCase(a, b)
    ensures FoundInDocs(sources, a) == FoundInDocs(sources, b)
  {
    SameIgnoringCaseLowersEqual(a, b);
  }

  /** The verdict already lowers the answer: lowering it beforehand changes nothing. */
  lemma FoundInDocsOfLowered(sources: seq<RetrievedChunk>, answer: string)
    ensures FoundInDocs(sources, ToLower(answer)) == FoundInDocs(sources, answer)
  {
    ToLowerIdempotent(answer);
  }

  /** An answer that contains one of the negative phrases, in any letter case, is never found in the documents. */
  lemma HedgingAnswerNotFound(sources: seq<RetrievedChunk>, answer: string, k: nat, i: nat)
    requires k < |NegativePhrases| && i + |NegativePhrases[k]| <= |answer|
    requires SameIgnoringCase(answer[i..i + |NegativePhrases[k]|], NegativePhrases[k])
    ensures !FoundInDocs(sources, answer)
  {
    var p := NegativePhrases[k];
    var lowered := ToLower(answer);
    forall j | 0 <= j < |p|
      ensures lowered[i + j] == p[j]
    {
      assert answer[i..i + |p|][j] == answer[i + j];
      assert !IsUpper(p[j]);
    }
    assert lowered[i..i + |p|] == p;
    assert OccursAt(p, lowered, i);
  }

  /** What `query` returns: the answer, the retrieved chunks and the verdict. */
  datatype QueryResult = QueryResult(answer: string, sources: seq<RetrievedChunk>, foundInDocs: bool)

  /** The answer of the chain: the chain retrieves again, joins the chunks into
      the context block, fills the prompt and asks the chat model. */
  function ChainAnswer(question: string, retrieved: Attempt<seq<RetrievedChunk>>, chat: string -> Attempt<string>): Attempt<string> {
    match retrieved
    case Raised(e) => Raised(e)
    case Returned(docs) => chat(RenderPrompt(FormatDocs(docs), question))
  }

  /** The chain sends the chat model one prompt that starts with the grounding
      instructions and holds the context block of the retrieved chunks and the
      question; a failing retrieval inside the chain propagates unchanged. */
  lemma ChainAsksGroundedPrompt(question: string, retrieved: Attempt<seq<RetrievedChunk>>, chat: string -> Attempt<string>)
    ensures retrieved.Raised? ==> ChainAnswer(question, retrieved, chat) == Raised(retrieved.error)
    ensures retrieved.Returned? ==>
              exists prompt :: && ChainAnswer(question, retrieved, chat) == chat(prompt)
                               && |PromptHead| <= |prompt| && prompt[..|PromptHead|] == PromptHead
                               && OccursAt(FormatDocs(retrieved.value), prompt, |PromptHead|)
                               && IsSubstring(question, prompt)
  {
    if retrieved.Returned? {
      var prompt := RenderPrompt(FormatDocs(retrieved.value), question);
      assert OccursAt(question, prompt, |PromptHead| + |FormatDocs(retrieved.value)| + |PromptMiddle|);
    }
  }

  /** `query(question)`: refused before a knowledge base exists, without
      touching any service; otherwise the sources are retrieved, the chain is
      asked, and the verdict is computed from both. */
  function Query(rag: Rag, question: string, svc: Services): (r: Attempt<QueryResult>)
    ensures !IsReady(rag) ==> r == Raised(Error(NotInitializedMessage))
    ensures r.Returned? ==> IsReady(rag)
    ensures r.Returned? ==> r.value.foundInDocs == FoundInDocs(r.value.sources, r.value.answer)
    ensures r.Returned? ==> RetrieveSources(svc.retrieverInvoke, svc.similaritySearch(TOP_K_RESULTS), svc.legacy) == Returned(r.value.sources)
    ensures r.Returned? ==> ChainAnswer(question, svc.chainRetrieval, svc.chat) == Returned(r.value.answer)
    ensures var sources := RetrieveSources(svc.retrieverInvoke, svc.similaritySearch(TOP_K_RESULTS), svc.legacy);
            IsReady(rag) && sources.Raised? ==> r == Raised(sources.error)
    ensures var sources := RetrieveSources(svc.retrieverInvoke, svc.similaritySearch(TOP_K_RESULTS), svc.legacy);
            var answer := ChainAnswer(question, svc.chainRetrieval, svc.chat);
            IsReady(rag) && sources.Returned? && answer.Raised? ==> r == Raised(answer.error)
    ensures var sources := RetrieveSources(svc.retrieverInvoke, svc.similaritySearch(TOP_K_RESULTS), svc.legacy);
            var answer := ChainAnswer(question, svc.chainRetrieval, svc.chat);
            IsReady(rag) && sources.Returned? && answer.Returned? ==>
              r == Returned(QueryResult(answer.value, sources.value, FoundInDocs(sources.value, answer.value)))
  {
    if !IsReady(rag) then Raised(Error(NotInitializedMessage))
    else
      match RetrieveSources(svc.retrieverInvoke, svc.similaritySearch(TOP_K_RESULTS), svc.legacy)
      case Raised(e) => Raised(e)
      case Returned(sources) =>
        match ChainAnswer(question, svc.chainRetrieval, svc.chat)
        case Raised(e) => Raised(e)
        case Returned(answer) => Returned(QueryResult(answer, sources, FoundInDocs(sources, answer)))
  }

  /** Before a knowledge base exists the services play no part: every set of responses gives the same refusal. */
  lemma QueryNotReadyIgnoresServices(rag: Rag, question: string, svc1: Services, svc2: Services)
    requires !IsReady(rag)
    ensures Query(rag, question, svc1) == Query(rag, question, svc2)
    ensures Query(rag, question, svc1).Raised?
  {
  }

  /** When `invoke` and the similarity search both raise and the retriever has
      no old method, no chunk is retrieved and the answer is never counted as
      found, whatever it says. */
  lemma RetrievalExhaustedNotFound(rag: Rag, question: string, svc: Services)
    requires svc.retrieverInvoke.Raised? && svc.similaritySearch(TOP_K_RESULTS).Raised? && svc.legacy.NoLegacyMethod?
    ensures Query(rag, question, svc).Returned? ==> Query(rag, question, svc).value.sources == [] && !Query(rag, question, svc).value.foundInDocs
  {
  }

  /** `generate_fallback_answer`: the bare question as the only message to the
      chat model, with no retrieval and no grounding instruction. */
  function FallbackAnswer(question: string, svc: Services): Attempt<string> {
    svc.chat(question)
  }
}

=== FILE: text.dfy ===
/** The handful of Python string operations the system relies on: `isspace`,
    `lower`, the substring test `p in s`, `strip`, `sep.join` and `"".join`.
 */
module Text {

  // ---------------------------------------------------------------------------
  // Whitespace
  // ---------------------------------------------------------------------------

  /** Python's `str.isspace()` for a single character, listed by code point. */
  predicate IsSpace(c: char) {
    var n := c as int;
    || (9 <= n <= 13)                // \t \n \v \f \r
    || (28 <= n <= 32)               // the four information separators and ' '
    || n == 0x85 || n == 0xA0 || n == 0x1680
    || (0x2000 <= n <= 0x200A)
    || n == 0x2028 || n == 0x2029 || n == 0x202F || n == 0x205F || n == 0x3000
  }

  /** Every character is whitespace; this is exactly when `not s.strip()` holds. */
  predicate IsBlank(s: string) {
    forall i :: 0 <= i < |s| ==> IsSpace(s[i])
  }

  // ---------------------------------------------------------------------------
  // Case
  // ---------------------------------------------------------------------------

  predicate IsUpper(c: char) {
    'A' <= c <= 'Z'
  }

  /** `c.lower()` for ASCII letters; every other character is left alone. */
  function LowerChar(c: char): char {
    if IsUpper(c) then (c as int + 32) as char else c
  }

  /** `s.lower()`, character by character. */
  function ToLower(s: string): string {
    seq(|s|, i requires 0 <= i < |s| => LowerChar(s[i]))
  }

  /** `a` and `b` differ at most in the case of their letters. */
  predicate SameIgnoringCase(a: string, b: string) {
    |a| == |b| && forall i :: 0 <= i < |a| ==> LowerChar(a[i]) == LowerChar(b[i])
  }

  /** Lowering leaves no upper-case letter behind, and lowering twice is lowering once. */
  lemma ToLowerIdempotent(s: string)
    ensures forall i :: 0 <= i < |s| ==> !IsUpper(ToLower(s)[i])
    ensures ToLower(ToLower(s)) == ToLower(s)
  {
  }

  /** Strings that differ only in letter case lower to the same string, and
      a string is the same as its own lowering up to case. */
  lemma SameIgnoringCaseLowersEqual(a: string, b: string)
    ensures SameIgnoringCase(a, b) <==> ToLower(a) == ToLower(b)
  {
    if ToLower(a) == ToLower(b) {
      assert |a| == |ToLower(a)|;
      forall i | 0 <= i < |a|
        ensures LowerChar(a[i]) == LowerChar(b[i])
      {
        assert ToLower(a)[i] == ToLower(b)[i];
      }
    }
  }

  // ---------------------------------------------------------------------------
  // Substrings
  // ---------------------------------------------------------------------------

  /** `p` sits in `s` starting at position `i`. */
  ghost predicate OccursAt(p: string, s: string, i: int) {
    0 <= i && i + |p| <= |s| && s[i..i + |p|] == p
  }

  /** `p` is a contiguous piece of `s`. */
  ghost predicate IsSubstring(p: string, s: string) {
    exists i :: OccursAt(p, s, i)
  }

  /** Python's `p in s` on strings, as a left-to-right scan of candidate positions. */
  function Contains(s: string, p: string): (r: bool)
    ensures r <==> IsSubstring(p, s)
    decreases |s|
  {
    if |p| > |s| then false
    else if s[..|p|] == p then assert OccursAt(p, s, 0); true
    else OccurrenceShift(p, s); Contains(s[1..], p)
  }

  /** When `p` is not at the front of `s`, its occurrences in `s` are those in `s[1..]`, shifted by one. */
  lemma OccurrenceShift(p: string, s: string)
    requires |p| <= |s| && s[..|p|] != p
    ensures 0 < |s|
    ensures IsSubstring(p, s) <==> IsSubstring(p, s[1..])
  {
    if IsSubstring(p, s) {
      var i :| OccursAt(p, s, i);
      assert i != 0;
      assert s[1..][i - 1..i - 1 + |p|] == s[i..i + |p|];
      assert OccursAt(p, s[1..], i - 1);
    }
    if IsSubstring(p, s[1..]) {
      var j :| OccursAt(p, s[1..], j);
      assert s[j + 1..j + 1 + |p|] == s[1..][j..j + |p|];
      assert OccursAt(p, s, j + 1);
    }
  }

  /** A string holding a character that `s` lacks is not a substring of `s`. */
  lemma AbsentCharNotSubstring(p: string, s: string, j: nat)
    requires j < |p| && forall i :: 0 <= i < |s| ==> s[i] != p[j]
    ensures !IsSubstring(p, s)
  {
    forall i
      ensures !OccursAt(p, s, i)
    {
      if 0 <= i && i + |p| <= |s| {
        assert s[i..i + |p|][j] == s[i + j];
      }
    }
  }

  /** A substring of a substring of `s` is a substring of `s`. */
  lemma SubstringTransitive(p: string, q: string, s: string)
    requires IsSubstring(p, q) && IsSubstring(q, s)
    ensures IsSubstring(p, s)
  {
    var i :| OccursAt(p, q, i);
    var j :| OccursAt(q, s, j);
    assert q == s[j..j + |q|];
    forall k | 0 <= k < |p|
      ensures s[j + i + k] == p[k]
    {
      assert p[k] == q[i + k] == s[j + i + k];
    }
    assert s[j + i..j + i + |p|] == p;
    assert OccursAt(p, s, j + i);
  }

  // ---------------------------------------------------------------------------
  // strip()
  // ---------------------------------------------------------------------------

  /** `s.lstrip()`: drops the longest all-whitespace prefix. */
  function StripLeading(s: string): (r: string)
    ensures |r| <= |s| && r == s[|s| - |r|..]
    ensures forall i :: 0 <= i < |s| - |r| ==> IsSpace(s[i])
    ensures r == [] || !IsSpace(r[0])
  {
    if |s| > 0 && IsSpace(s[0]) then
      var r := StripLeading(s[1..]);
      assert forall i :: 1 <= i < |s| ==> s[i] == s[1..][i - 1];
      r
    else
      s
  }

  /** `s.rstrip()`: drops the longest all-whitespace suffix. */
  function StripTrailing(s: string): (r: string)
    ensures |r| <= |s| && r == s[..|r|]
    ensures forall i :: |r| <= i < |s| ==> IsSpace(s[i])
    ensures r == [] || !IsSpace(r[|r| - 1])
  {
    if |s| > 0 && IsSpace(s[|s| - 1]) then
      var r := StripTrailing(s[..|s| - 1]);
      assert forall i :: 0 <= i < |s| - 1 ==> s[i] == s[..|s| - 1][i];
      r
    else
      s
  }

  /** `r` is `s` with the whitespace runs before position `lo` and after `lo + |r|` removed. */
  ghost predicate Trims(s: string, r: string, lo: int) {
    && 0 <= lo && lo + |r| <= |s|
    && r == s[lo..lo + |r|]
    && (forall i :: 0 <= i < lo ==> IsSpace(s[i]))
    && (forall i :: lo + |r| <= i < |s| ==> IsSpace(s[i]))
  }

  /** Removing a whitespace prefix of `s`, giving `t`, and then a whitespace
      suffix of `t`, giving `r`, leaves `r` trimmed out of `s`. */
  lemma TrimsInTwoSteps(s: string, t: string, r: string)
    requires |t| <= |s| && t == s[|s| - |t|..] && forall i :: 0 <= i < |s| - |t| ==> IsSpace(s[i])
    requires |r| <= |t| && r == t[..|r|] && forall i :: |r| <= i < |t| ==> IsSpace(t[i])
    ensures Trims(s, r, |s| - |t|)
  {
  }

  /** Python's `s.strip()`: the piece of `s` left after removing whitespace at both ends. */
  function Strip(s: string): (r: string)
    ensures r == [] || (!IsSpace(r[0]) && !IsSpace(r[|r| - 1]))
  {
    var t := StripLeading(s);
    var r := StripTrailing(t);
    assert r == [] || r[0] == t[0];
    r
  }

  /** What `strip` removes is whitespace on both sides of the piece it keeps. */
  lemma StripTrims(s: string)
    ensures Trims(s, Strip(s), |s| - |StripLeading(s)|)
  {
    TrimsInTwoSteps(s, StripLeading(s), Strip(s));
  }

  /** Stripping an already stripped string changes nothing. */
  lemma StripIdempotent(s: string)
    ensures Strip(Strip(s)) == Strip(s)
  {
  }

  /** `s.strip()` is empty exactly when `s` is whitespace only. */
  lemma StripEmptyIffBlank(s: string)
    ensures Strip(s) == [] <==> IsBlank(s)
  {
  }

  // ---------------------------------------------------------------------------
  // join()
  // ---------------------------------------------------------------------------

  /** Python's `sep.join(xs)`. */
  function Join(sep: string, xs: seq<string>): string {
    if |xs| == 0 then ""
    else if |xs| == 1 then xs[0]
    else xs[0] + sep + Join(sep, xs[1..])
  }

  /** Python's `"".join(xs)`. */
  function Concat(xs: seq<string>): string {
    if |xs| == 0 then "" else xs[0] + Concat(xs[1..])
  }

  /** A join cuts cleanly at every boundary between two pieces: the pieces
      before it, one separator, the pieces after it. */
  lemma {:induction false} JoinSplit(sep: string, xs: seq<string>, i: int)
    requires 0 < i < |xs|
    ensures Join(sep, xs) == Join(sep, xs[..i]) + sep + Join(sep, xs[i..])
    decreases i
  {
    if i == 1 {
      assert xs[..1] == [xs[0]];
      assert xs[1..] == xs[i..];
    } else {
      JoinSplit(sep, xs[1..], i - 1);
      assert xs[1..][..i - 1] == xs[..i][1..];
      assert xs[1..][i - 1..] == xs[i..];
    }
  }

  /** `"".join` distributes over concatenation of the piece lists. */
  lemma {:induction false} ConcatAppend(xs: seq<string>, ys: seq<string>)
    ensures Concat(xs + ys) == Concat(xs) + Concat(ys)
  {
    if |xs| == 0 {
      assert xs + ys == ys;
    } else {
      var zs := xs + ys;
      assert zs[0] == xs[0];
      assert zs[1..] == xs[1..] + ys;
      ConcatAppend(xs[1..], ys);
      assert Concat(zs) == xs[0] + (Concat(xs[1..]) + Concat(ys));
    }
  }
}
